=== FILE: README.md ===
# docker_pull.py, modelled in Dafny

`docker_tool/docker_pull.py` downloads one image from a Docker registry v2 without a Docker daemon. It packs the image into a tar in the legacy `docker save` layout. This project models the script's core, from its command-line values to the contents of the image directory `tmp` and the name of the tar:

- **Platform** (`Reference.ParsePlatform`): `--platform` is split at `/` into an os and an architecture.
- **Image reference** (`Reference.ParseReference`): `--image` is split into parts:
  - the registry (the first segment, when it holds a `.` or a `:`);
  - the repository path (or `library`);
  - the image name;
  - the tag (after `@`, else after `:`, else `latest`).
- **Token challenge** (`Auth.ReadChallenge`): a 401 from the probe of `/v2/` yields the token realm and service, cut out of the `WWW-Authenticate` header at its quotes.
- **Manifest** (`Manifest.Resolve`, `Manifest.FetchManifest`):
  - A manifest list is narrowed to one entry. The requested platform wins, else the first `windows/amd64` entry, else entry 0.
  - That entry's manifest is then fetched by digest.
  - The final document must have `layers`.
- **Layer ids** (`Layers.ChainIds`): each layer id is the SHA-256 of the parent's id and the layer's digest. The ids therefore form a chain.
- **Layer metadata** (`Layers.MetaFor`): each layer's `json` is one of two things, plus its `id` and `parent`:
  - the image config, without `history` and `rootfs`/`rootfS`, for the layer whose digest is the last layer's;
  - a fixed empty stub, for every other layer.
- **Layer loop** (`Archive.StageLayers`): for each layer, in manifest order, it:
  1. creates the layer's directory;
  2. writes `VERSION`;
  3. fetches the blob, from the registry or else from the layer's first foreign URL;
  4. lists `<id>/layer.tar`;
  5. writes the `json`.
- **Indexes and output** (`Image.Assemble`): the config file, `manifest.json` and `repositories` are written, and the tar name is derived from the reference.
- **The whole run** (`Pull.Pull`) chains these steps. It is proved equal to the function `Pull.PullOutcome`, which states the run step by step.

Each fatal exit the model covers, whether an explicit `exit(1)` or an uncaught Python exception, is a constructor of `Errors.Error`. An operation returns it as the failure half of a `Result`. The exits that come from JSON of an unexpected shape are not covered (see "Left out").

Several things become inputs:
- The registry's answers are inputs: statuses, the challenge header, the manifest documents (already parsed), and the config (already parsed as a JSON object).
- SHA-256 is a parameter `h: string -> Hex64`. Its results are 64 hex digits. Where distinct ids are needed, the lemmas assume that `h` has no collision among the finitely many strings the layer chain hashes (`Layers.CollisionFreeOn`).
- The directory `tmp` is a map from paths (`Top(name)` or `Inside(dir, file)`) to directories and files.
- File contents are abstract: a plain text, a JSON document, or the blob fetched from the registry or a URL, either raw or unpacked.

Python's `str.split`, `'/'.join`, `str.replace` and slicing are in `Text`. Splitting and joining are specified by their round trips (`Text.JoinSplit`, `Text.SplitJoin`). `Text.Replace` keeps the length and leaves no replaced character. `Text.Drop` is the slice `s[n:]`.

The model keeps these behaviours of the code, which a reader might not expect:
- A probe that answers anything but 401 keeps the Docker Hub token defaults; it is not an error.
- Only the first foreign URL of a layer is tried.
- When a config has both `rootfs` and `rootfS`, only `rootfs` is removed.
- An empty `--image` does not fail. It gives the image name `""` in `library`.
- The config is copied into every layer whose digest equals the last layer's digest. So a lower layer that repeats the top layer's blob also gets it.

## Model

| member | source | states |
|---|---|---|
| Reference.ParsePlatform | docker_tool/docker_pull.py:60-61 | the platform parses exactly when it holds a '/'; otherwise the error is `BadPlatform(platform)`; a parsed os and architecture hold no '/' |
| Reference.ParsePlatformSpec | docker_tool/docker_pull.py:60-61 | parsing succeeds iff the platform holds a '/'; `os/arch` and `os/arch/variant` give back exactly that os and architecture |
| Reference.ParseReference | docker_tool/docker_pull.py:63-84 | parsing never fails; `parts` is the '/'-split of the image (at least one part); name and tag hold no '/'; the registry holds a '.' or ':' |
| Reference.NameTagNoSlash | docker_tool/docker_pull.py:67-73 | the name/tag split of a segment without '/' yields a name and a tag without '/' |
| Reference.NameTagOfSuffix | docker_tool/docker_pull.py:67-73 | `name`, `name:tag` and `name@digest` split back into that name and `latest`, the tag or the digest |
| Reference.SplitNameTagAt | docker_tool/docker_pull.py:67-68 | a last segment with exactly one '@' splits there, whatever ':' it holds (so `name:tag@sha256:x` keeps `name:tag` as the name): name + '@' + tag is the segment, and neither holds '@' |
| Reference.SplitNameTagColon | docker_tool/docker_pull.py:69-71 | a segment without exactly one '@' but with exactly one ':' splits at the ':' (so `a@b@c:d` gives `a@b@c` and `d`): name + ':' + tag is the segment, and neither holds ':' |
| Reference.SplitNameTagWhole | docker_tool/docker_pull.py:72-73 | a segment with neither exactly one '@' nor exactly one ':' (such as `a:b:c`) is the whole name, tagged `latest` |
| Reference.RenderSplits | docker_tool/docker_pull.py:66 | a well-formed reference splits at '/' into its host, path segments and last segment |
| Reference.ParseRender | docker_tool/docker_pull.py:63-84 | parsing recovers every part of a well-formed reference: registry or the public registry, repository path or `library`, name, tag or `latest`, repository `repo/name` |
| Reference.HostWithoutPath | docker_tool/docker_pull.py:75-77 | `host/name` gives an empty repository path, repository `/name` and tar `_name.tar` |
| Reference.TarNameIgnoresTag | docker_tool/docker_pull.py:350 | the tar name is the repository path with '_' for '/', then `_name.tar`; two references differing only in tag give the same name |
| Reference.RepoNameOfRender | docker_tool/docker_pull.py:250-253 | the `RepoTags`/`repositories` name keeps every segment before the image name (host included), or is the bare name; the tag entry is that name, ':' and the tag |
| Auth.ReadChallenge | docker_tool/docker_pull.py:87-98 | a status other than 401 keeps the default realm and service; a 401 read yields a realm and service free of '"' |
| Auth.ChallengeNeedsQuote | docker_tool/docker_pull.py:93-94 | a 401 succeeds iff the header is present and holds a '"' |
| Auth.ChallengeRealmService | docker_tool/docker_pull.py:94-96 | in `..."R"..."S"...` the first quoted text is the realm and the second the service |
| Auth.ChallengeWithoutService | docker_tool/docker_pull.py:95-98 | with only two quotes the service falls back to the empty string |
| Manifest.FirstMatch | docker_tool/docker_pull.py:170-175 | the result is the first index from `from` whose platform matches; None iff none matches |
| Manifest.SelectionPolicy | docker_tool/docker_pull.py:168-186 | the pick exists iff the list is non-empty; it is the first exact match, else the first windows/amd64 entry, else entry 0; a platform-less entry is picked only as that last resort |
| Manifest.SelectManifest | docker_tool/docker_pull.py:168-186 | the three `for ... break` passes compute the selection policy |
| Manifest.RequireLayers | docker_tool/docker_pull.py:214-219 | a document is accepted iff it has `layers`, and is returned unchanged |
| Manifest.Resolve | docker_tool/docker_pull.py:136-219 | resolution succeeds iff the first answer is a 200 with a JSON body, and either that body is a manifest with layers, or it is a list whose selected entry has a platform and whose by-digest answer is a 200 JSON manifest with layers; each other case gives its own error (`ManifestStatus`, `UnparsableManifest` for either body, `EmptyManifestList`, `MissingKey("platform")`, `ListedManifestStatus`, `MissingKey("layers")`); a success always has layers and is the plain manifest or the selected entry's manifest |
| Manifest.FetchManifest | docker_tool/docker_pull.py:136-219 | the script's fetch steps compute `Resolve` |
| Manifest.SelectionExamples | docker_tool/docker_pull.py:168-186 | on [linux/arm64, linux/amd64, windows/amd64] linux/amd64 picks entry 1 and linux/386 entry 2; a lone non-matching entry is picked |
| Layers.ChainIds | docker_tool/docker_pull.py:260-264 | one id per layer |
| Layers.ChainIdsPrefix | docker_tool/docker_pull.py:260-264 | the ids of the bottom k layers depend on those layers' digests only |
| Layers.ChainIdAt | docker_tool/docker_pull.py:264 | each id is the hash of the parent's id (or "") and the layer's digest |
| Layers.DistinctPair | docker_tool/docker_pull.py:264 | when the hash has no collision on the chain's inputs, layers i < j get different ids |
| Layers.ChainIdsDistinct | docker_tool/docker_pull.py:260-266 | when the hash has no collision on the chain's inputs, all ids are pairwise distinct, even for repeated digests |
| Layers.StripConfigSpec | docker_tool/docker_pull.py:322-327 | stripping succeeds iff the config has `history` and `rootfs` or `rootfS`; it removes `history` and `rootfs` (else `rootfS`), keeps `rootfS` only when both were present, and keeps every other key and value |
| Layers.BuildMeta | docker_tool/docker_pull.py:317-333 | the script's metadata construction computes `MetaFor` |
| Layers.LayerMetaSucceeds | docker_tool/docker_pull.py:320-329 | a layer's metadata fails iff it copies the config and stripping fails |
| Layers.LayerMetaIds | docker_tool/docker_pull.py:330-333 | the metadata carries the layer's own id and, above the bottom layer, the parent's id; the bottom layer has `parent` only from a copied config |
| Layers.LayerMetaFromConfig | docker_tool/docker_pull.py:320-327 | a layer with the last layer's digest carries exactly the config minus `history` and `rootfs` (or `rootfS` when `rootfs` is absent), besides its ids: its key set is the config's keys minus those two plus `id` (and `parent` above the bottom layer); every key it has comes from the config with the config's value, and every other config key is kept with its value; at the bottom layer, which gets no parent, a `parent` key of the config is kept as well |
| Layers.LayerMetaFromStub | docker_tool/docker_pull.py:328-330 | every other layer carries exactly the empty stub besides its ids |
| Layers.AllMetaSucceed | docker_tool/docker_pull.py:317-333 | all layers get metadata iff there are none or the config strips |
| Archive.BlobSourceSpec | docker_tool/docker_pull.py:277-293 | a 200 from the registry is used; otherwise the first foreign URL is used iff it answers 200; the download fails iff both fail or there is no URL |
| Archive.LayerFiles | docker_tool/docker_pull.py:265-334 | a layer adds exactly its directory, `VERSION`, `layer.tar` and `json`, with their contents |
| Archive.TakenIffCollides | docker_tool/docker_pull.py:266 | a layer's directory already exists iff its name was in `tmp` or an earlier layer has that id |
| Archive.FailureEndsLoop | docker_tool/docker_pull.py:261-291 | after a failing turn every later prefix of the loop reports the same error |
| Archive.StageOneResult | docker_tool/docker_pull.py:261-335 | one turn succeeds iff the directory is free, the blob downloads and the json builds; it then adds that layer's files, lists `<id>/layer.tar` and moves `parent_id` to the id |
| Archive.StageNext | docker_tool/docker_pull.py:261-335 | one turn of the loop on its variables computes the next prefix of the loop |
| Archive.StageLayers | docker_tool/docker_pull.py:260-335 | the layer loop, stopping at the first failing layer, computes the full loop `StagePrefix` |
| Archive.StagePrefixSpec | docker_tool/docker_pull.py:260-335 | after k turns: success iff each of the k layers has a free name, a blob and metadata; the state then lists their tars, holds the top id and adds their files over `tmp` |
| Archive.NoCollisionDistinct | docker_tool/docker_pull.py:266 | when no layer collides, all ids are pairwise distinct |
| Archive.StagingSucceedsIff | docker_tool/docker_pull.py:260-335 | the whole loop succeeds iff every layer can be staged |
| Archive.StagedListing | docker_tool/docker_pull.py:315 | after the loop `Layers` is `<id>/layer.tar` for every layer in order and `parent_id` is the top id |
| Archive.StagedState | docker_tool/docker_pull.py:260-335 | after a successful loop `tmp` is its old contents plus every layer's files |
| Archive.StagedLayersIntact | docker_tool/docker_pull.py:265-335 | after the loop every layer's directory holds `VERSION` = 1.0, its unpacked blob and its metadata |
| Archive.StagedKeys | docker_tool/docker_pull.py:260-335 | after the loop `tmp` holds exactly its old paths and every layer's paths |
| Archive.StagedElsewhere | docker_tool/docker_pull.py:260-335 | after the loop every old entry outside the layers' paths is unchanged |
| Image.ManifestIndexFields | docker_tool/docker_pull.py:245-253 | `manifest.json` holds one entry with exactly `Config` (digest without `sha256:` plus `.json`), one `RepoTags` entry, and `Layers` in order |
| Image.AssembleSucceeds | docker_tool/docker_pull.py:235-347 | assembly succeeds iff there is a layer and every layer can be staged over `tmp` with the config file |
| Image.AssembleIndexes | docker_tool/docker_pull.py:337-350 | on success the tar name comes from the reference, `manifest.json` lists every layer tar in order, and `repositories` maps the tag to the top layer's id |
| Image.StagedUnderIndexes | docker_tool/docker_pull.py:337-347 | writing the two index files leaves every layer directory intact |
| Image.AssembleLayers | docker_tool/docker_pull.py:259-347 | in the archive every layer's directory holds `VERSION`, its unpacked blob and its metadata |
| Image.ConfigNameNotId | docker_tool/docker_pull.py:241 | the config file's name is never a layer id |
| Image.AssembleConfigFile | docker_tool/docker_pull.py:241-243 | the config file keeps the fetched config blob unless its name is `manifest.json` |
| Image.FreshAssembleSucceeds | docker_tool/docker_pull.py:229-347 | with an empty `tmp` and no hash collision on the chain's inputs: success iff there is a layer, every blob downloads and the config strips |
| Pull.Pull | docker_tool/docker_pull.py:59-350 | the script's run computes `PullOutcome` |
| Pull.PullEarlyFailures | docker_tool/docker_pull.py:60-147 | no '/' gives `BadPlatform`; a 401 without a header or without a quote gives its error; a non-200 manifest gives `ManifestStatus` |
| Pull.PullSteps | docker_tool/docker_pull.py:59-350 | a run succeeds iff the platform parses, the challenge reads, the manifest resolves with a config, and assembly succeeds; the result holds both index files and the tar name from the reference |

## Left out

- HTTP itself is not modelled: the session and its retries, TLS, timeouts, connection errors, and the token request (`get_auth_head`). Each answer the script reads is an input instead.
- Argument parsing (`argparse`) is left out. `--image` and `--platform` are plain string parameters, and `--platform` has no default.
- Console output is left out: progress bars, diagnostics prints and `Content-Length` handling. The progress bar's `Content-Length` lookup can also fail, and that failure is not modelled.
- Downloading bytes is not modelled: gzip decompression, the tar packing and `shutil.rmtree` of `tmp`. A layer's `layer.tar` is recorded as "the unpacked blob from its origin".
- JSON serialisation is not modelled. Key order and the formatting of `json.dumps` are not represented; objects are maps.
- `Pull.PullOutcome` returns only the error on failure. The script leaves a partly filled `tmp` behind (the config file, earlier layers, a `VERSION` file).
- SHA-256 is the parameter `h`. Distinctness of layer ids is proved only under the hypothesis that `h` has no collision among the strings the chain hashes (`Layers.CollisionFreeOn`). That holds for any single layer (`Layers.CollisionFreeOnOne`); for longer chains it is an assumption about SHA-256.
- The manifest and layer entries are typed values, so JSON of an unexpected shape is not modelled. Each such case is a fatal exit of the script that the model does not have:
  - a manifest-list entry with a `platform` but no `digest` (the listing loop's KeyError, even when another entry is selected);
  - an entry whose `platform` is `null` (an AttributeError);
  - a layer without `digest` (a KeyError in the layer loop);
  - `layers`, `manifests` or `urls` that are not lists, and digests that are not strings.
- The config blob is taken as an already-parsed JSON object. A body that is not JSON, or not an object, is not modelled. The config request's status is not checked by the script, and it is not modelled either.
- The config file is modelled as a write that replaces any entry of that name. Writing it over an existing directory fails in the script, and that failure is not modelled.
- `Image.AssembleConfigFile` is stated for every config name other than `manifest.json`. A config digest `sha256:manifest` would be overwritten by `manifest.json`; that case is excluded rather than described.
- Paths are at most two levels deep (an entry of `tmp`, or a file in one of its directories). That is all the script creates.
- A config whose `config` key exists but lacks `digest` is not modelled. The whole `config` object is either absent (`MissingKey("config")`) or has a digest string.

=== FILE: archive.dfy ===
/**
 * The staging tree of docker_pull.py and the archive built from it. The
 * `tmp` directory is a map from paths relative to it to directories and
 * files; the per-layer loop creates one directory per layer, and the two
 * index files `manifest.json` and `repositories` are written at the root.
 */
module Archive {
  import opened Wrappers
  import opened Errors
  import opened Json
  import opened Manifest
  import opened Layers

  /** Where a blob's bytes came from. */
  datatype BlobOrigin = Registry(digest: string) | Foreign(url: string)

  /** What a staged file holds; blob contents are abstract. */
  datatype Content =
    | Plain(text: string)
    | Doc(json: Json)
    | Raw(origin: BlobOrigin)       // written as downloaded
    | Unpacked(origin: BlobOrigin)  // the gunzipped blob

  datatype Entry = Dir | File(content: Content)

  /** A path under `tmp`: an entry of `tmp` itself, or a file inside one of its directories. */
  datatype Path = Top(name: string) | Inside(dir: string, file: string)

  type Tree = map<Path, Entry>

  /**
   * The blob of `layer`: the registry's blob endpoint when it answers 200,
   * otherwise the layer's first foreign URL, which must then answer 200.
   * `registryStatus` and `urlStatus` are the statuses those GETs return.
   */
  function BlobSource(layer: LayerEntry, registryStatus: string -> int, urlStatus: string -> int): Result<BlobOrigin, Error>
  {
    if registryStatus(layer.digest) == 200 then Success(Registry(layer.digest))
    else if layer.urls.None? || |layer.urls.value| == 0 then Failure(NoForeignUrl(layer.digest))
    else
      var url := layer.urls.value[0];
      var code := urlStatus(url);
      if code == 200 then Success(Foreign(url)) else Failure(BlobStatus(layer.digest, code))
  }

  /**
   * The registry's blob is taken whenever it answers 200; otherwise only the
   * first foreign URL is tried, and the download fails when there is none or
   * it does not answer 200.
   */
  lemma BlobSourceSpec(layer: LayerEntry, registryStatus: string -> int, urlStatus: string -> int)
    ensures var r := BlobSource(layer, registryStatus, urlStatus);
      && (registryStatus(layer.digest) == 200 ==> r == Success(Registry(layer.digest)))
      && (r.Success? && r.value.Registry? ==> r.value.digest == layer.digest)
      && (r.Success? && r.value.Foreign? ==>
            && layer.urls.Some? && |layer.urls.value| > 0
            && r.value.url == layer.urls.value[0]
            && urlStatus(r.value.url) == 200)
      && (r.Failure? <==>
            registryStatus(layer.digest) != 200
            && (layer.urls.None? || |layer.urls.value| == 0 || urlStatus(layer.urls.value[0]) != 200))
  {
  }

  function Digests(layers: seq<LayerEntry>): (ds: seq<string>)
    ensures |ds| == |layers|
    ensures forall i :: 0 <= i < |layers| ==> ds[i] == layers[i].digest
  {
    seq(|layers|, i requires 0 <= i < |layers| => layers[i].digest)
  }

  /** The paths a layer's directory occupies. */
  function LayerPaths(id: string): set<Path>
  {
    {Top(id), Inside(id, "VERSION"), Inside(id, "layer.tar"), Inside(id, "json")}
  }

  /** Layer `id`'s directory with its VERSION, layer.tar and json files. */
  predicate LayerStaged(t: Tree, id: string, origin: BlobOrigin, meta: map<string, Json>)
  {
    && Top(id) in t && t[Top(id)] == Dir
    && Inside(id, "VERSION") in t && t[Inside(id, "VERSION")] == File(Plain("1.0"))
    && Inside(id, "layer.tar") in t && t[Inside(id, "layer.tar")] == File(Unpacked(origin))
    && Inside(id, "json") in t && t[Inside(id, "json")] == File(Doc(JObj(meta)))
  }

  /** `os.mkdir` of layer `i`'s directory fails: the path is taken. */
  predicate Collides(pre: Tree, ids: seq<string>, i: nat)
    requires i < |ids|
  {
    Top(ids[i]) in pre || ids[i] in ids[..i]
  }

  /** The entries one layer adds: its directory, VERSION, layer.tar and json. */
  function LayerFiles(id: string, origin: BlobOrigin, meta: map<string, Json>): (files: Tree)
    ensures files.Keys == LayerPaths(id)
    ensures LayerStaged(files, id, origin, meta)
  {
    map[Top(id) := Dir, Inside(id, "VERSION") := File(Plain("1.0")),
        Inside(id, "layer.tar") := File(Unpacked(origin)), Inside(id, "json") := File(Doc(JObj(meta)))]
  }

  /** `os.mkdir` of the layer's directory, then its VERSION, layer.tar and json files. */
  function AddLayer(t: Tree, id: string, origin: BlobOrigin, meta: map<string, Json>): Tree
  {
    t[Top(id) := Dir]
     [Inside(id, "VERSION") := File(Plain("1.0"))]
     [Inside(id, "layer.tar") := File(Unpacked(origin))]
     [Inside(id, "json") := File(Doc(JObj(meta)))]
  }

  lemma AddLayerAdds(t: Tree, id: string, origin: BlobOrigin, meta: map<string, Json>)
    ensures AddLayer(t, id, origin, meta) == t + LayerFiles(id, origin, meta)
  {
  }

  /** The entries the first |origins| layers add, each layer's over the ones below. */
  function Added(ids: seq<string>, origins: seq<BlobOrigin>, metas: seq<map<string, Json>>): Tree
    requires |origins| == |metas| <= |ids|
    decreases |origins|
  {
    if origins == [] then map[]
    else
      var n := |origins| - 1;
      Added(ids, origins[..n], metas[..n]) + LayerFiles(ids[n], origins[n], metas[n])
  }

  /** A path is added exactly when it belongs to one of the staged layers. */
  lemma {:induction false} AddedKeys(ids: seq<string>, origins: seq<BlobOrigin>, metas: seq<map<string, Json>>)
    requires |origins| == |metas| <= |ids|
    ensures forall p :: p in Added(ids, origins, metas) <==> exists i :: 0 <= i < |origins| && p in LayerPaths(ids[i])
    decreases |origins|
  {
    if origins != [] {
      var n := |origins| - 1;
      AddedKeys(ids, origins[..n], metas[..n]);
      var below := Added(ids, origins[..n], metas[..n]);
      var top := LayerFiles(ids[n], origins[n], metas[n]);
      assert Added(ids, origins, metas) == below + top;
      forall p ensures p in below + top <==> exists i :: 0 <= i < |origins| && p in LayerPaths(ids[i]) {
        if p in top {
          assert 0 <= n < |origins| && p in LayerPaths(ids[n]);
        } else if p in below {
          var i :| 0 <= i < n && p in LayerPaths(ids[i]);
          assert 0 <= i < |origins| && p in LayerPaths(ids[i]);
        } else {
          forall i | 0 <= i < |origins| ensures p !in LayerPaths(ids[i]) {
            if i == n {
              assert p !in top;
            }
          }
        }
      }
    }
  }

  /** A layer staged in `below` stays staged when `top` touches none of its paths. */
  lemma StagedBelow(below: Tree, id: string, origin: BlobOrigin, meta: map<string, Json>,
                     topId: string, topOrigin: BlobOrigin, topMeta: map<string, Json>)
    requires LayerStaged(below, id, origin, meta)
    requires id != topId
    ensures LayerStaged(below + LayerFiles(topId, topOrigin, topMeta), id, origin, meta)
  {
  }


  /** With pairwise distinct ids, every staged layer's files are intact. */
  lemma {:induction false} AddedStaged(ids: seq<string>, origins: seq<BlobOrigin>, metas: seq<map<string, Json>>, i: nat)
    requires |origins| == |metas| <= |ids| && i < |origins|
    requires forall a, b :: 0 <= a < b < |origins| ==> ids[a] != ids[b]
    ensures LayerStaged(Added(ids, origins, metas), ids[i], origins[i], metas[i])
    decreases |origins|
  {
    var n := |origins| - 1;
    var below := Added(ids, origins[..n], metas[..n]);
    var top := LayerFiles(ids[n], origins[n], metas[n]);
    assert Added(ids, origins, metas) == below + top;
    if i < n {
      AddedStaged(ids, origins[..n], metas[..n], i);
      assert ids[i] != ids[n];
      StagedBelow(below, ids[i], origins[i], metas[i], ids[n], origins[n], metas[n]);
    }
  }

  /** A layer directory is among the added entries exactly when one of the staged layers has that id. */
  lemma {:induction false} TopInAdded(ids: seq<string>, origins: seq<BlobOrigin>, metas: seq<map<string, Json>>, name: string)
    requires |origins| == |metas| <= |ids|
    ensures Top(name) in Added(ids, origins, metas) <==> name in ids[..|origins|]
    decreases |origins|
  {
    if origins != [] {
      var n := |origins| - 1;
      TopInAdded(ids, origins[..n], metas[..n], name);
      assert ids[..|origins|] == ids[..n] + [ids[n]];
      assert Added(ids, origins, metas) == Added(ids, origins[..n], metas[..n]) + LayerFiles(ids[n], origins[n], metas[n]);
    }
  }


  /** Layer `k`'s directory already exists exactly when it collides. */
  lemma TakenIffCollides(pre: Tree, ids: seq<string>, origins: seq<BlobOrigin>, metas: seq<map<string, Json>>)
    requires |origins| == |metas| < |ids|
    ensures Top(ids[|origins|]) in pre + Added(ids, origins, metas) <==> Collides(pre, ids, |origins|)
  {
    TopInAdded(ids, origins, metas, ids[|origins|]);
  }

  /** Adding one more layer's files extends the staged entries by that layer. */
  lemma AddedStep(pre: Tree, ids: seq<string>, origins: seq<BlobOrigin>, metas: seq<map<string, Json>>,
                  origin: BlobOrigin, meta: map<string, Json>)
    requires |origins| == |metas| < |ids|
    ensures pre + Added(ids, origins, metas) + LayerFiles(ids[|origins|], origin, meta)
         == pre + Added(ids, origins + [origin], metas + [meta])
  {
    var added := Added(ids, origins, metas);
    var files := LayerFiles(ids[|origins|], origin, meta);
    AddedLast(ids, origins, metas, origin, meta);
    MergeAssoc(pre, added, files);
  }

  lemma AddedLast(ids: seq<string>, origins: seq<BlobOrigin>, metas: seq<map<string, Json>>,
                  origin: BlobOrigin, meta: map<string, Json>)
    requires |origins| == |metas| < |ids|
    ensures Added(ids, origins + [origin], metas + [meta]) == Added(ids, origins, metas) + LayerFiles(ids[|origins|], origin, meta)
  {
    var n := |origins|;
    assert (origins + [origin])[..n] == origins;
    assert (metas + [meta])[..n] == metas;
  }

  lemma MergeAssoc(a: Tree, b: Tree, c: Tree)
    ensures a + b + c == a + (b + c)
  {
  }


  /** With distinct ids, each layer's files survive on top of `pre` and of the other layers. */
  lemma StagedTreeLayers(pre: Tree, ids: seq<string>, origins: seq<BlobOrigin>, metas: seq<map<string, Json>>, i: nat)
    requires |origins| == |metas| <= |ids| && i < |origins|
    requires forall a, b :: 0 <= a < b < |origins| ==> ids[a] != ids[b]
    ensures LayerStaged(pre + Added(ids, origins, metas), ids[i], origins[i], metas[i])
  {
    AddedStaged(ids, origins, metas, i);
  }

  /**
   * The bottom `k` layers can all be staged: no layer's directory name is
   * taken, every blob downloads, and every layer's json can be built.
   */
  predicate StagingSucceeds(pre: Tree, layers: seq<LayerEntry>, config: map<string, Json>, ids: seq<Hex64>,
                            registryStatus: string -> int, urlStatus: string -> int, k: nat)
    requires |ids| == |layers| && k <= |layers|
  {
    && (forall i :: 0 <= i < k ==> !Collides(pre, ids, i))
    && (forall i :: 0 <= i < k ==> BlobSource(layers[i], registryStatus, urlStatus).Success?)
    && (forall i :: 0 <= i < k ==> LayerMeta(config, Digests(layers), ids, i).Success?)
  }

  /** The archive's `Layers` list for the bottom `k` layers. */
  function LayerTars(ids: seq<string>, k: nat): (tars: seq<string>)
    requires k <= |ids|
    ensures |tars| == k
  {
    seq(k, i requires 0 <= i < k => ids[i] + "/layer.tar")
  }

  /** What the layer loop carries from one layer to the next: the tree, the `Layers` list, and `parent_id`. */
  datatype Staged = Staged(tree: Tree, layerPaths: seq<string>, parentId: string)

  /**
   * One turn of the layer loop: derive the layer's id from `parent_id`,
   * create its directory (failing when the name is taken), fetch its blob,
   * list `<id>/layer.tar`, and write its json.
   */
  function StageOne(s: Staged, layer: LayerEntry, isLast: bool, config: map<string, Json>, h: string -> Hex64,
                    registryStatus: string -> int, urlStatus: string -> int): Result<Staged, Error>
  {
    var id := LegacyId(h, s.parentId, layer.digest);
    if Top(id) in s.tree then Failure(LayerDirExists(id))
    else match BlobSource(layer, registryStatus, urlStatus)
      case Failure(e) => Failure(e)
      case Success(origin) =>
        match MetaFor(config, isLast, id, s.parentId)
        case Failure(e) => Failure(e)
        case Success(meta) =>
          Success(Staged(AddLayer(s.tree, id, origin, meta), s.layerPaths + [id + "/layer.tar"], id))
  }

  /** The loop after its first `k` turns, or the error that ended it. */
  function StagePrefix(pre: Tree, layers: seq<LayerEntry>, config: map<string, Json>, h: string -> Hex64,
                       registryStatus: string -> int, urlStatus: string -> int, k: nat): Result<Staged, Error>
    requires k <= |layers|
    decreases k, 0
  {
    if k == 0 then Success(Staged(pre, [], ""))
    else StageTurn(pre, layers, config, h, registryStatus, urlStatus, k - 1)
  }

  /** Turn `k` of the loop: layer `k` staged on top of the earlier turns, unless one of them failed. */
  function StageTurn(pre: Tree, layers: seq<LayerEntry>, config: map<string, Json>, h: string -> Hex64,
                     registryStatus: string -> int, urlStatus: string -> int, k: nat): Result<Staged, Error>
    requires k < |layers|
    decreases k, 1
  {
    match StagePrefix(pre, layers, config, h, registryStatus, urlStatus, k)
    case Failure(e) => Failure(e)
    case Success(s) =>
      StageOne(s, layers[k], layers[|layers| - 1].digest == layers[k].digest, config, h, registryStatus, urlStatus)
  }

  /** The loop's next turn continues from the state of the previous one. */
  lemma PrefixStep(pre: Tree, layers: seq<LayerEntry>, config: map<string, Json>, h: string -> Hex64,
                   registryStatus: string -> int, urlStatus: string -> int, k: nat, s: Staged)
    requires k < |layers|
    requires StagePrefix(pre, layers, config, h, registryStatus, urlStatus, k) == Success(s)
    ensures StagePrefix(pre, layers, config, h, registryStatus, urlStatus, k + 1)
         == StageOne(s, layers[k], layers[|layers| - 1].digest == layers[k].digest, config, h, registryStatus, urlStatus)
  {
    assert StagePrefix(pre, layers, config, h, registryStatus, urlStatus, k + 1)
        == StageTurn(pre, layers, config, h, registryStatus, urlStatus, k);
  }

  /** An error ends the loop: every later prefix reports the same error. */
  lemma {:induction false} FailureEndsLoop(pre: Tree, layers: seq<LayerEntry>, config: map<string, Json>, h: string -> Hex64,
                                           registryStatus: string -> int, urlStatus: string -> int, k: nat, j: nat)
    requires k <= j <= |layers|
    requires StagePrefix(pre, layers, config, h, registryStatus, urlStatus, k).Failure?
    ensures StagePrefix(pre, layers, config, h, registryStatus, urlStatus, j)
         == StagePrefix(pre, layers, config, h, registryStatus, urlStatus, k)
    decreases j
  {
    if j > k {
      FailureEndsLoop(pre, layers, config, h, registryStatus, urlStatus, k, j - 1);
      assert StagePrefix(pre, layers, config, h, registryStatus, urlStatus, j)
          == StageTurn(pre, layers, config, h, registryStatus, urlStatus, j - 1);
    }
  }

  /** One turn of the layer loop, for layer `k`, on the loop's variables. */
  method StageNext(pre: Tree, layers: seq<LayerEntry>, config: map<string, Json>, h: string -> Hex64,
                   registryStatus: string -> int, urlStatus: string -> int, k: nat, s: Staged)
    returns (r: Result<Staged, Error>)
    requires k < |layers|
    requires StagePrefix(pre, layers, config, h, registryStatus, urlStatus, k) == Success(s)
    ensures r == StagePrefix(pre, layers, config, h, registryStatus, urlStatus, k + 1)
  {
    PrefixStep(pre, layers, config, h, registryStatus, urlStatus, k, s);
    var layer := layers[k];
    var isLast := layers[|layers| - 1].digest == layer.digest;
    var id := h(s.parentId + "\n" + layer.digest + "\n");
    if Top(id) in s.tree {
      return Failure(LayerDirExists(id));
    }
    var source := BlobSource(layer, registryStatus, urlStatus);
    if source.Failure? {
      return Failure(source.error);
    }
    var paths := s.layerPaths + [id + "/layer.tar"];
    var built := BuildMeta(config, isLast, id, s.parentId);
    if built.Failure? {
      return Failure(built.error);
    }
    r := Success(Staged(AddLayer(s.tree, id, source.value, built.value), paths, id));
  }

  /**
   * The layer loop of the script, layer by layer in manifest order: it
   * stops at the first layer that cannot be staged.
   */
  method StageLayers(pre: Tree, layers: seq<LayerEntry>, config: map<string, Json>, h: string -> Hex64,
                     registryStatus: string -> int, urlStatus: string -> int) returns (r: Result<Staged, Error>)
    ensures r == StagePrefix(pre, layers, config, h, registryStatus, urlStatus, |layers|)
  {
    r := Success(Staged(pre, [], ""));
    var k := 0;
    while k < |layers| && r.Success?
      invariant k <= |layers|
      invariant r == StagePrefix(pre, layers, config, h, registryStatus, urlStatus, k)
    {
      r := StageNext(pre, layers, config, h, registryStatus, urlStatus, k, r.value);
      k := k + 1;
    }
    if r.Failure? {
      FailureEndsLoop(pre, layers, config, h, registryStatus, urlStatus, k, |layers|);
    }
  }

  /** Where each of the bottom `k` layers' blobs came from. */
  ghost function Origins(layers: seq<LayerEntry>, registryStatus: string -> int, urlStatus: string -> int, k: nat): (os: seq<BlobOrigin>)
    requires k <= |layers|
    requires forall i :: 0 <= i < k ==> BlobSource(layers[i], registryStatus, urlStatus).Success?
    ensures |os| == k
  {
    if k == 0 then []
    else Origins(layers, registryStatus, urlStatus, k - 1) + [BlobSource(layers[k - 1], registryStatus, urlStatus).value]
  }

  lemma {:induction false} OriginsAt(layers: seq<LayerEntry>, registryStatus: string -> int, urlStatus: string -> int, k: nat, i: nat)
    requires i < k <= |layers|
    requires forall j :: 0 <= j < k ==> BlobSource(layers[j], registryStatus, urlStatus).Success?
    ensures Origins(layers, registryStatus, urlStatus, k)[i] == BlobSource(layers[i], registryStatus, urlStatus).value
  {
    if i < k - 1 {
      OriginsAt(layers, registryStatus, urlStatus, k - 1, i);
    }
  }

  /** The json of each of the bottom `k` layers. */
  ghost function Metas(config: map<string, Json>, ds: seq<string>, ids: seq<Hex64>, k: nat): (ms: seq<map<string, Json>>)
    requires |ids| == |ds| && k <= |ds|
    requires forall i :: 0 <= i < k ==> LayerMeta(config, ds, ids, i).Success?
    ensures |ms| == k
  {
    if k == 0 then []
    else Metas(config, ds, ids, k - 1) + [LayerMeta(config, ds, ids, k - 1).value]
  }

  lemma {:induction false} MetasAt(config: map<string, Json>, ds: seq<string>, ids: seq<Hex64>, k: nat, i: nat)
    requires |ids| == |ds| && i < k <= |ds|
    requires forall j :: 0 <= j < k ==> LayerMeta(config, ds, ids, j).Success?
    ensures Metas(config, ds, ids, k)[i] == LayerMeta(config, ds, ids, i).value
  {
    if i < k - 1 {
      MetasAt(config, ds, ids, k - 1, i);
    }
  }

  /** One turn succeeds exactly when the name is free, the blob downloads and the json builds. */
  lemma StageOneResult(s: Staged, layer: LayerEntry, isLast: bool, config: map<string, Json>, h: string -> Hex64,
                       registryStatus: string -> int, urlStatus: string -> int,
                       id: string, taken: bool, meta: Result<map<string, Json>, Error>)
    requires LegacyId(h, s.parentId, layer.digest) == id
    requires (Top(id) in s.tree) == taken
    requires MetaFor(config, isLast, id, s.parentId) == meta
    ensures var r := StageOne(s, layer, isLast, config, h, registryStatus, urlStatus);
      var source := BlobSource(layer, registryStatus, urlStatus);
      && (r.Success? <==> !taken && source.Success? && meta.Success?)
      && (r.Success? ==>
            r.value == Staged(s.tree + LayerFiles(id, source.value, meta.value), s.layerPaths + [id + "/layer.tar"], id))
  {
    var source := BlobSource(layer, registryStatus, urlStatus);
    if source.Success? && meta.Success? {
      AddLayerAdds(s.tree, id, source.value, meta.value);
    }
  }

  /** Turn `n` derives the `n`-th chained id. */
  lemma IdAt(h: string -> Hex64, layers: seq<LayerEntry>, ds: seq<string>, ids: seq<Hex64>, n: nat, parent: string)
    requires ds == Digests(layers) && ids == ChainIds(h, ds) && n < |layers|
    requires parent == ParentOf(ids, n)
    ensures LegacyId(h, parent, layers[n].digest) == ids[n]
  {
    ChainIdAt(h, ds, n);
  }

  /** Turn `n` builds the `n`-th layer's metadata. */
  lemma MetaAt(config: map<string, Json>, layers: seq<LayerEntry>, ds: seq<string>, ids: seq<Hex64>, n: nat, parent: string)
    requires ds == Digests(layers) && |ids| == |ds| && n < |layers|
    requires parent == ParentOf(ids, n)
    ensures MetaFor(config, layers[|layers| - 1].digest == layers[n].digest, ids[n], parent) == LayerMeta(config, ds, ids, n)
  {
    assert ds[n] == layers[n].digest;
    assert ds[|ds| - 1] == layers[|layers| - 1].digest;
  }

  /** The `Layers` list grows by one entry per turn. */
  lemma LayerTarsStep(ids: seq<string>, k: nat)
    requires 0 < k <= |ids|
    ensures LayerTars(ids, k - 1) + [ids[k - 1] + "/layer.tar"] == LayerTars(ids, k)
  {
  }


  /** The state after one more successful turn extends the bookkeeping by one layer. */
  lemma ReachedStep(pre: Tree, ids: seq<string>, origins: seq<BlobOrigin>, metas: seq<map<string, Json>>,
                    origin: BlobOrigin, meta: map<string, Json>, s: Staged, k: nat)
    requires 0 < k <= |ids| && |origins| == |metas| == k - 1
    requires s.layerPaths == LayerTars(ids, k - 1)
    requires s.tree == pre + Added(ids, origins, metas)
    ensures s.layerPaths + [ids[k - 1] + "/layer.tar"] == LayerTars(ids, k)
    ensures s.tree + LayerFiles(ids[k - 1], origin, meta) == pre + Added(ids, origins + [origin], metas + [meta])
  {
    LayerTarsStep(ids, k);
    AddedStep(pre, ids, origins, metas, origin, meta);
  }


  /** The first `n + 1` layers can be staged exactly when the first `n` can and layer `n` can. */
  lemma SucceedsStep(pre: Tree, layers: seq<LayerEntry>, config: map<string, Json>, ids: seq<Hex64>,
                     registryStatus: string -> int, urlStatus: string -> int, k: nat)
    requires |ids| == |layers| && 0 < k <= |layers|
    ensures StagingSucceeds(pre, layers, config, ids, registryStatus, urlStatus, k)
      <==> && StagingSucceeds(pre, layers, config, ids, registryStatus, urlStatus, k - 1)
           && !Collides(pre, ids, k - 1)
           && BlobSource(layers[k - 1], registryStatus, urlStatus).Success?
           && LayerMeta(config, Digests(layers), ids, k - 1).Success?
  {
  }


  /** The state the loop has reached after its first `k` turns. */
  ghost predicate Reached(pre: Tree, layers: seq<LayerEntry>, config: map<string, Json>,
                          registryStatus: string -> int, urlStatus: string -> int,
                          ds: seq<string>, ids: seq<Hex64>, k: nat, s: Staged)
    requires ds == Digests(layers) && |ids| == |ds| && k <= |layers|
    requires StagingSucceeds(pre, layers, config, ids, registryStatus, urlStatus, k)
  {
    && s.parentId == ParentOf(ids, k)
    && s.layerPaths == LayerTars(ids, k)
    && s.tree == pre + Added(ids, Origins(layers, registryStatus, urlStatus, k), Metas(config, ds, ids, k))
  }

  /**
   * The loop's first `k` turns succeed exactly when each of those layers can
   * be staged; the state then holds the chained ids, the `Layers` list and
   * the staged layer directories over the tree the loop started from.
   */
  ghost predicate PrefixSpec(pre: Tree, layers: seq<LayerEntry>, config: map<string, Json>, h: string -> Hex64,
                             registryStatus: string -> int, urlStatus: string -> int, k: nat)
    requires k <= |layers|
  {
    var ds := Digests(layers);
    var ids := ChainIds(h, ds);
    var r := StagePrefix(pre, layers, config, h, registryStatus, urlStatus, k);
    && (r.Success? <==> StagingSucceeds(pre, layers, config, ids, registryStatus, urlStatus, k))
    && (r.Success? ==> Reached(pre, layers, config, registryStatus, urlStatus, ds, ids, k, r.value))
  }

  /** By induction on the number of turns, every prefix of the loop meets `PrefixSpec`. */
  lemma {:induction false} StagePrefixSpec(pre: Tree, layers: seq<LayerEntry>, config: map<string, Json>, h: string -> Hex64,
                                           registryStatus: string -> int, urlStatus: string -> int, k: nat)
    requires k <= |layers|
    ensures PrefixSpec(pre, layers, config, h, registryStatus, urlStatus, k)
  {
    if k > 0 {
      StagePrefixSpec(pre, layers, config, h, registryStatus, urlStatus, k - 1);
      PrefixSpecStep(pre, layers, config, h, registryStatus, urlStatus, k);
    }
  }

  /** The loop's `k`-th turn after a successful prefix, in terms of the chained id and the layer's blob and metadata. */
  lemma TurnOutcome(pre: Tree, layers: seq<LayerEntry>, config: map<string, Json>, h: string -> Hex64,
                    registryStatus: string -> int, urlStatus: string -> int, k: nat, s: Staged,
                    origins: seq<BlobOrigin>, metas: seq<map<string, Json>>)
    requires 0 < k <= |layers| && |origins| == |metas| == k - 1
    requires StagePrefix(pre, layers, config, h, registryStatus, urlStatus, k - 1) == Success(s)
    requires s.parentId == ParentOf(ChainIds(h, Digests(layers)), k - 1)
    requires s.tree == pre + Added(ChainIds(h, Digests(layers)), origins, metas)
    ensures var ds := Digests(layers);
      var ids := ChainIds(h, ds);
      var r := StagePrefix(pre, layers, config, h, registryStatus, urlStatus, k);
      var source := BlobSource(layers[k - 1], registryStatus, urlStatus);
      var meta := LayerMeta(config, ds, ids, k - 1);
      && (r.Success? <==> !Collides(pre, ids, k - 1) && source.Success? && meta.Success?)
      && (r.Success? ==>
            r.value == Staged(s.tree + LayerFiles(ids[k - 1], source.value, meta.value),
                              s.layerPaths + [ids[k - 1] + "/layer.tar"], ids[k - 1]))
  {
    var n := k - 1;
    var ds := Digests(layers);
    var ids := ChainIds(h, ds);
    IdAt(h, layers, ds, ids, n, s.parentId);
    MetaAt(config, layers, ds, ids, n, s.parentId);
    TakenIffCollides(pre, ids, origins, metas);
    StageOneResult(s, layers[n], layers[|layers| - 1].digest == layers[n].digest, config, h, registryStatus, urlStatus,
                   ids[n], Collides(pre, ids, n), LayerMeta(config, ds, ids, n));
    assert StagePrefix(pre, layers, config, h, registryStatus, urlStatus, k)
        == StageTurn(pre, layers, config, h, registryStatus, urlStatus, n);
  }


  /** Once a turn has failed, `PrefixSpec` carries over to the next turn. */
  lemma PrefixSpecAfterFailure(pre: Tree, layers: seq<LayerEntry>, config: map<string, Json>, h: string -> Hex64,
                               registryStatus: string -> int, urlStatus: string -> int, k: nat)
    requires 0 < k <= |layers|
    requires StagePrefix(pre, layers, config, h, registryStatus, urlStatus, k - 1).Failure?
    requires !StagingSucceeds(pre, layers, config, ChainIds(h, Digests(layers)), registryStatus, urlStatus, k - 1)
    ensures StagePrefix(pre, layers, config, h, registryStatus, urlStatus, k).Failure?
    ensures !StagingSucceeds(pre, layers, config, ChainIds(h, Digests(layers)), registryStatus, urlStatus, k)
  {
    SucceedsStep(pre, layers, config, ChainIds(h, Digests(layers)), registryStatus, urlStatus, k);
    FailureEndsLoop(pre, layers, config, h, registryStatus, urlStatus, k - 1, k);
  }

  /** After a successful prefix, the next turn succeeds exactly when layer `k - 1` can be staged. */
  lemma PrefixSucceedsStep(pre: Tree, layers: seq<LayerEntry>, config: map<string, Json>, h: string -> Hex64,
                           registryStatus: string -> int, urlStatus: string -> int, k: nat, s: Staged,
                           origins: seq<BlobOrigin>, metas: seq<map<string, Json>>)
    requires 0 < k <= |layers| && |origins| == |metas| == k - 1
    requires StagePrefix(pre, layers, config, h, registryStatus, urlStatus, k - 1) == Success(s)
    requires StagingSucceeds(pre, layers, config, ChainIds(h, Digests(layers)), registryStatus, urlStatus, k - 1)
    requires s.parentId == ParentOf(ChainIds(h, Digests(layers)), k - 1)
    requires s.tree == pre + Added(ChainIds(h, Digests(layers)), origins, metas)
    ensures StagePrefix(pre, layers, config, h, registryStatus, urlStatus, k).Success?
        <==> StagingSucceeds(pre, layers, config, ChainIds(h, Digests(layers)), registryStatus, urlStatus, k)
  {
    SucceedsStep(pre, layers, config, ChainIds(h, Digests(layers)), registryStatus, urlStatus, k);
    TurnOutcome(pre, layers, config, h, registryStatus, urlStatus, k, s, origins, metas);
  }


  /** After a successful prefix, a successful next turn reaches the state `PrefixSpec` describes. */
  lemma PrefixReachedStep(pre: Tree, layers: seq<LayerEntry>, config: map<string, Json>, h: string -> Hex64,
                          registryStatus: string -> int, urlStatus: string -> int, k: nat)
    requires 0 < k <= |layers|
    requires PrefixSpec(pre, layers, config, h, registryStatus, urlStatus, k - 1)
    requires StagePrefix(pre, layers, config, h, registryStatus, urlStatus, k - 1).Success?
    requires StagePrefix(pre, layers, config, h, registryStatus, urlStatus, k).Success?
    requires StagingSucceeds(pre, layers, config, ChainIds(h, Digests(layers)), registryStatus, urlStatus, k)
    ensures Reached(pre, layers, config, registryStatus, urlStatus, Digests(layers), ChainIds(h, Digests(layers)), k,
                    StagePrefix(pre, layers, config, h, registryStatus, urlStatus, k).value)
  {
    var n := k - 1;
    var ds := Digests(layers);
    var ids := ChainIds(h, ds);
    SucceedsStep(pre, layers, config, ids, registryStatus, urlStatus, k);
    var s := StagePrefix(pre, layers, config, h, registryStatus, urlStatus, n).value;
    var origins := Origins(layers, registryStatus, urlStatus, n);
    var metas := Metas(config, ds, ids, n);
    TurnOutcome(pre, layers, config, h, registryStatus, urlStatus, k, s, origins, metas);
    var origin := BlobSource(layers[n], registryStatus, urlStatus).value;
    var meta := LayerMeta(config, ds, ids, n).value;
    ReachedStep(pre, ids, origins, metas, origin, meta, s, k);
    assert Origins(layers, registryStatus, urlStatus, k) == origins + [origin];
    assert Metas(config, ds, ids, k) == metas + [meta];
  }

  /** The inductive step of `StagePrefixSpec`. */
  lemma PrefixSpecStep(pre: Tree, layers: seq<LayerEntry>, config: map<string, Json>, h: string -> Hex64,
                       registryStatus: string -> int, urlStatus: string -> int, k: nat)
    requires 0 < k <= |layers|
    requires PrefixSpec(pre, layers, config, h, registryStatus, urlStatus, k - 1)
    ensures PrefixSpec(pre, layers, config, h, registryStatus, urlStatus, k)
  {
    if StagePrefix(pre, layers, config, h, registryStatus, urlStatus, k - 1).Success? {
      var ds := Digests(layers);
      var s := StagePrefix(pre, layers, config, h, registryStatus, urlStatus, k - 1).value;
      PrefixSucceedsStep(pre, layers, config, h, registryStatus, urlStatus, k, s,
                         Origins(layers, registryStatus, urlStatus, k - 1), Metas(config, ds, ChainIds(h, ds), k - 1));
      if StagePrefix(pre, layers, config, h, registryStatus, urlStatus, k).Success? {
        PrefixReachedStep(pre, layers, config, h, registryStatus, urlStatus, k);
      }
    } else {
      PrefixSpecAfterFailure(pre, layers, config, h, registryStatus, urlStatus, k);
    }
  }



  /** No two staged layers share an id when no layer collided. */
  lemma NoCollisionDistinct(pre: Tree, ids: seq<string>)
    requires forall i :: 0 <= i < |ids| ==> !Collides(pre, ids, i)
    ensures forall a, b :: 0 <= a < b < |ids| ==> ids[a] != ids[b]
  {
    forall a, b | 0 <= a < b < |ids| ensures ids[a] != ids[b] {
      assert !Collides(pre, ids, b);
      assert ids[..b][a] == ids[a];
    }
  }


  /** The whole layer loop succeeds exactly when every layer can be staged. */
  lemma StagingSucceedsIff(pre: Tree, layers: seq<LayerEntry>, config: map<string, Json>, h: string -> Hex64,
                           registryStatus: string -> int, urlStatus: string -> int)
    ensures StagePrefix(pre, layers, config, h, registryStatus, urlStatus, |layers|).Success?
        <==> StagingSucceeds(pre, layers, config, ChainIds(h, Digests(layers)), registryStatus, urlStatus, |layers|)
  {
    StagePrefixSpec(pre, layers, config, h, registryStatus, urlStatus, |layers|);
  }

  /**
   * After the loop the archive lists `<id>/layer.tar` for every layer, bottom
   * first, and `parent_id` holds the top layer's id.
   */
  lemma StagedListing(pre: Tree, layers: seq<LayerEntry>, config: map<string, Json>, h: string -> Hex64,
                      registryStatus: string -> int, urlStatus: string -> int)
    ensures var ids := ChainIds(h, Digests(layers));
      var r := StagePrefix(pre, layers, config, h, registryStatus, urlStatus, |layers|);
      r.Success? ==> r.value.layerPaths == LayerTars(ids, |ids|) && r.value.parentId == ParentOf(ids, |ids|)
  {
    StagePrefixSpec(pre, layers, config, h, registryStatus, urlStatus, |layers|);
  }

  /** The loop's state after it succeeded, in terms of the per-layer blobs and metadata. */
  lemma StagedState(pre: Tree, layers: seq<LayerEntry>, config: map<string, Json>, h: string -> Hex64,
                    registryStatus: string -> int, urlStatus: string -> int)
    requires StagePrefix(pre, layers, config, h, registryStatus, urlStatus, |layers|).Success?
    ensures var ds := Digests(layers);
      var ids := ChainIds(h, ds);
      && StagingSucceeds(pre, layers, config, ids, registryStatus, urlStatus, |layers|)
      && StagePrefix(pre, layers, config, h, registryStatus, urlStatus, |layers|).value.tree
         == pre + Added(ids, Origins(layers, registryStatus, urlStatus, |layers|), Metas(config, ds, ids, |layers|))
  {
    StagePrefixSpec(pre, layers, config, h, registryStatus, urlStatus, |layers|);
  }

  /**
   * After the loop every layer's directory holds its VERSION file, its
   * unpacked blob as layer.tar and its json metadata.
   */
  lemma StagedLayersIntact(pre: Tree, layers: seq<LayerEntry>, config: map<string, Json>, h: string -> Hex64,
                           registryStatus: string -> int, urlStatus: string -> int, i: nat)
    requires i < |layers|
    requires StagePrefix(pre, layers, config, h, registryStatus, urlStatus, |layers|).Success?
    ensures var ds := Digests(layers);
      var ids := ChainIds(h, ds);
      && BlobSource(layers[i], registryStatus, urlStatus).Success?
      && LayerMeta(config, ds, ids, i).Success?
      && LayerStaged(StagePrefix(pre, layers, config, h, registryStatus, urlStatus, |layers|).value.tree, ids[i],
                     BlobSource(layers[i], registryStatus, urlStatus).value, LayerMeta(config, ds, ids, i).value)
  {
    var ds := Digests(layers);
    var ids := ChainIds(h, ds);
    StagedState(pre, layers, config, h, registryStatus, urlStatus);
    var origins := Origins(layers, registryStatus, urlStatus, |layers|);
    var metas := Metas(config, ds, ids, |layers|);
    NoCollisionDistinct(pre, ids);
    OriginsAt(layers, registryStatus, urlStatus, |layers|, i);
    MetasAt(config, ds, ids, |layers|, i);
    StagedTreeLayers(pre, ids, origins, metas, i);
  }

  /** After the loop the tree holds exactly what `tmp` held before and every layer's paths. */
  lemma StagedKeys(pre: Tree, layers: seq<LayerEntry>, config: map<string, Json>, h: string -> Hex64,
                   registryStatus: string -> int, urlStatus: string -> int, p: Path)
    requires StagePrefix(pre, layers, config, h, registryStatus, urlStatus, |layers|).Success?
    ensures var ids := ChainIds(h, Digests(layers));
      p in StagePrefix(pre, layers, config, h, registryStatus, urlStatus, |layers|).value.tree
      <==> p in pre || exists i :: 0 <= i < |ids| && p in LayerPaths(ids[i])
  {
    var ds := Digests(layers);
    var ids := ChainIds(h, ds);
    StagedState(pre, layers, config, h, registryStatus, urlStatus);
    AddedKeys(ids, Origins(layers, registryStatus, urlStatus, |layers|), Metas(config, ds, ids, |layers|));
  }

  /** After the loop every entry of `tmp` outside the layers' paths is unchanged. */
  lemma StagedElsewhere(pre: Tree, layers: seq<LayerEntry>, config: map<string, Json>, h: string -> Hex64,
                        registryStatus: string -> int, urlStatus: string -> int, p: Path)
    requires StagePrefix(pre, layers, config, h, registryStatus, urlStatus, |layers|).Success?
    requires p in pre
    requires forall i :: 0 <= i < |layers| ==> p !in LayerPaths(ChainIds(h, Digests(layers))[i])
    ensures var tree := StagePrefix(pre, layers, config, h, registryStatus, urlStatus, |layers|).value.tree;
      p in tree && tree[p] == pre[p]
  {
    var ds := Digests(layers);
    var ids := ChainIds(h, ds);
    StagedState(pre, layers, config, h, registryStatus, urlStatus);
    AddedKeys(ids, Origins(layers, registryStatus, urlStatus, |layers|), Metas(config, ds, ids, |layers|));
  }
}

=== FILE: auth.dfy ===
/**
 * The probe of the registry's API root: on a 401 the token endpoint and
 * the service name are cut out of the WWW-Authenticate header by splitting
 * it on '"'; on any other status the Docker Hub defaults stay in place.
 */
module Auth {
  import opened Wrappers
  import opened Errors
  import opened Text

  const DefaultRealm := "https://auth.docker.io/token"
  const DefaultService := "registry.docker.io"

  datatype TokenService = TokenService(realm: string, service: string)

  /**
   * `status` and `header` (the WWW-Authenticate value, None when the
   * response lacks it) come from the GET on `https://<registry>/v2/`.
   */
  function ReadChallenge(status: int, header: Option<string>): (r: Result<TokenService, Error>)
    ensures status != 401 ==> r == Success(TokenService(DefaultRealm, DefaultService))
    ensures status == 401 && r.Success? ==> '"' !in r.value.realm && '"' !in r.value.service
  {
    if status != 401 then Success(TokenService(DefaultRealm, DefaultService))
    else if header.None? then Failure(MissingKey("WWW-Authenticate"))
    else
      var pieces := Split(header.value, '"');
      SplitPiecesFree(header.value, '"');
      if |pieces| < 2 then Failure(MissingRealm(header.value))
      else Success(TokenService(pieces[1], if |pieces| > 3 then pieces[3] else ""))
  }

  /** A 401 succeeds exactly when the header is present and holds a '"'. */
  lemma ChallengeNeedsQuote(header: Option<string>)
    ensures ReadChallenge(401, header).Success? <==> header.Some? && '"' in header.value
  {
    if header.Some? {
      SplitCount(header.value, '"');
    }
  }

  /**
   * The usual header `Bearer realm="R",service="S",scope="..."`: the first
   * quoted text is the realm and the second the service.
   */
  lemma {:induction false} ChallengeRealmService(lead: string, realm: string, mid: string, service: string, rest: string)
    requires '"' !in lead && '"' !in realm && '"' !in mid && '"' !in service
    ensures ReadChallenge(401, Some(lead + "\"" + realm + "\"" + mid + "\"" + service + "\"" + rest))
         == Success(TokenService(realm, service))
  {
    var h := lead + "\"" + realm + "\"" + mid + "\"" + service + "\"" + rest;
    assert h == lead + ['"'] + (realm + ['"'] + (mid + ['"'] + (service + ['"'] + rest)));
    SplitConcat(lead, realm + ['"'] + (mid + ['"'] + (service + ['"'] + rest)), '"');
    SplitConcat(realm, mid + ['"'] + (service + ['"'] + rest), '"');
    SplitConcat(mid, service + ['"'] + rest, '"');
    SplitConcat(service, rest, '"');
    SplitNoSep(lead, '"');
    SplitNoSep(realm, '"');
    SplitNoSep(mid, '"');
    SplitNoSep(service, '"');
  }

  /**
   * With only two quotes (`Bearer realm="R"`) the realm is read and the
   * service falls back to the empty string.
   */
  lemma {:induction false} ChallengeWithoutService(lead: string, realm: string, rest: string)
    requires '"' !in lead && '"' !in realm && '"' !in rest
    ensures ReadChallenge(401, Some(lead + "\"" + realm + "\"" + rest))
         == Success(TokenService(realm, ""))
  {
    var h := lead + "\"" + realm + "\"" + rest;
    assert h == lead + ['"'] + (realm + ['"'] + rest);
    SplitConcat(lead, realm + ['"'] + rest, '"');
    SplitConcat(realm, rest, '"');
    SplitNoSep(lead, '"');
    SplitNoSep(realm, '"');
    SplitNoSep(rest, '"');
  }
}

=== FILE: errors.dfy ===
/**
 * The fatal conditions of docker_pull.py. The script reports each of them by
 * printing a message (or by an uncaught Python exception) and stopping; the
 * model returns them as the failure half of a Result.
 */
module Errors {
  datatype Error =
    | BadPlatform(platform: string)     // the --platform value has no '/' (IndexError)
    | MissingKey(key: string)           // a dictionary lookup or `del` of an absent key (KeyError)
    | MissingRealm(header: string)      // the challenge header has no '"' (IndexError)
    | ManifestStatus(code: int)         // the manifest request did not answer 200
    | ListedManifestStatus(code: int)   // the per-platform manifest request did not answer 200
    | UnparsableManifest                // a manifest body is not JSON
    | EmptyManifestList                 // `manifests[0]` of an empty list (IndexError)
    | NoForeignUrl(digest: string)      // blob endpoint failed and the layer has no `urls[0]`
    | BlobStatus(digest: string, code: int) // the foreign URL did not answer 200 either
    | LayerDirExists(id: string)        // os.mkdir of a layer directory that already exists
    | NoLayers                          // `fake_layer_id` read although the loop never ran (NameError)
}

=== FILE: image.dfy ===
/**
 * The image directory `tmp` in the legacy `docker save` layout, once the
 * manifest is known: the config file, one directory per layer, the
 * archive manifest `manifest.json` and the `repositories` index, and the
 * name of the tar file the directory is packed into.
 */
module Image {
  import opened Wrappers
  import opened Errors
  import opened Json
  import opened Text
  import opened Reference
  import opened Manifest
  import opened Layers
  import opened Archive

  /** What the script leaves behind: the contents it packs into the tar, and the tar's file name. */
  datatype Pulled = Pulled(tree: Tree, fileName: string)

  /** `config[7:] + '.json'`: the config digest without its `sha256:` prefix. */
  function ConfigName(configDigest: string): string
  {
    Drop(configDigest, 7) + ".json"
  }

  /** `tmp` after the config blob is written to its file (over any earlier file of that name). */
  function WithConfig(pre: Tree, configDigest: string): Tree
  {
    pre[Top(ConfigName(configDigest)) := File(Raw(Registry(configDigest)))]
  }

  /** The JSON strings of `ss`, in order. */
  function Strings(ss: seq<string>): (js: seq<Json>)
    ensures |js| == |ss|
    ensures forall i :: 0 <= i < |ss| ==> js[i] == JStr(ss[i])
  {
    seq(|ss|, i requires 0 <= i < |ss| => JStr(ss[i]))
  }

  /** The archive manifest: one entry naming the config file, the image's tag and the layer tars. */
  function ManifestIndex(ref: ImageRef, configDigest: string, layerPaths: seq<string>): Json
    requires |ref.parts| >= 1
  {
    JArr([JObj(map[
      "Config" := JStr(ConfigName(configDigest)),
      "RepoTags" := JArr([JStr(RepoTag(ref))]),
      "Layers" := JArr(Strings(layerPaths))])])
  }

  /** The `repositories` index: the repository name mapped to `{tag: id of the top layer}`. */
  function RepositoriesIndex(ref: ImageRef, topId: string): Json
    requires |ref.parts| >= 1
  {
    JObj(map[RepoName(ref) := JObj(map[ref.tag := JStr(topId)])])
  }

  /**
   * Everything after the manifest is resolved: the config file, the layer
   * loop, `manifest.json`, then `repositories`, which reads the id of the
   * last layer and so fails when the loop never ran.
   */
  function Assemble(pre: Tree, ref: ImageRef, configDigest: string, layers: seq<LayerEntry>,
                    config: map<string, Json>, h: string -> Hex64,
                    registryStatus: string -> int, urlStatus: string -> int): Result<Pulled, Error>
    requires |ref.parts| >= 1
  {
    match StagePrefix(WithConfig(pre, configDigest), layers, config, h, registryStatus, urlStatus, |layers|)
    case Failure(e) => Failure(e)
    case Success(s) =>
      var withManifest := s.tree[Top("manifest.json") := File(Doc(ManifestIndex(ref, configDigest, s.layerPaths)))];
      if |layers| == 0 then Failure(NoLayers)
      else Success(Pulled(withManifest[Top("repositories") := File(Doc(RepositoriesIndex(ref, s.parentId)))],
                          TarName(ref)))
  }

  // ----- What the archive holds -----

  /** The single manifest entry names the config file, carries one tag, and lists the layer tars in order. */
  lemma ManifestIndexFields(ref: ImageRef, configDigest: string, layerPaths: seq<string>)
    requires |ref.parts| >= 1
    ensures var m := ManifestIndex(ref, configDigest, layerPaths);
      && m.JArr? && |m.items| == 1 && m.items[0].JObj?
      && m.items[0].fields.Keys == {"Config", "RepoTags", "Layers"}
      && m.items[0].fields["Config"] == JStr(Drop(configDigest, 7) + ".json")
      && m.items[0].fields["RepoTags"] == JArr([JStr(RepoName(ref) + ":" + ref.tag)])
      && m.items[0].fields["Layers"].JArr?
      && |m.items[0].fields["Layers"].items| == |layerPaths|
      && forall i :: 0 <= i < |layerPaths| ==> m.items[0].fields["Layers"].items[i] == JStr(layerPaths[i])
  {
  }

  /** The assembly succeeds exactly when there is a layer and the layer loop gets through all of them. */
  lemma AssembleSucceeds(pre: Tree, ref: ImageRef, configDigest: string, layers: seq<LayerEntry>,
                         config: map<string, Json>, h: string -> Hex64,
                         registryStatus: string -> int, urlStatus: string -> int)
    requires |ref.parts| >= 1
    ensures Assemble(pre, ref, configDigest, layers, config, h, registryStatus, urlStatus).Success?
        <==> |layers| > 0
             && StagingSucceeds(WithConfig(pre, configDigest), layers, config, ChainIds(h, Digests(layers)),
                                registryStatus, urlStatus, |layers|)
  {
    StagingSucceedsIff(WithConfig(pre, configDigest), layers, config, h, registryStatus, urlStatus);
  }

  /**
   * The tar is named after the repository and the image, `manifest.json`
   * lists `<id>/layer.tar` for every layer in manifest order, and
   * `repositories` maps the tag to the id of the last layer.
   */
  lemma AssembleIndexes(pre: Tree, ref: ImageRef, configDigest: string, layers: seq<LayerEntry>,
                        config: map<string, Json>, h: string -> Hex64,
                        registryStatus: string -> int, urlStatus: string -> int)
    requires |ref.parts| >= 1
    ensures var r := Assemble(pre, ref, configDigest, layers, config, h, registryStatus, urlStatus);
      var ids := ChainIds(h, Digests(layers));
      r.Success? ==>
        && r.value.fileName == TarName(ref)
        && Top("manifest.json") in r.value.tree
        && r.value.tree[Top("manifest.json")] == File(Doc(ManifestIndex(ref, configDigest, LayerTars(ids, |ids|))))
        && Top("repositories") in r.value.tree
        && r.value.tree[Top("repositories")] == File(Doc(RepositoriesIndex(ref, ids[|ids| - 1])))
  {
    StagedListing(WithConfig(pre, configDigest), layers, config, h, registryStatus, urlStatus);
  }

  /** Two top-level files whose names are not 64 characters long leave a layer's directory as it was. */
  lemma StagedUnderIndexes(t: Tree, id: Hex64, origin: BlobOrigin, meta: map<string, Json>, a: Entry, b: Entry)
    requires LayerStaged(t, id, origin, meta)
    ensures LayerStaged(t[Top("manifest.json") := a][Top("repositories") := b], id, origin, meta)
  {
    assert id != "manifest.json" && id != "repositories";
  }

  /** Every layer's directory in the archive holds its VERSION, its unpacked blob and its json. */
  lemma AssembleLayers(pre: Tree, ref: ImageRef, configDigest: string, layers: seq<LayerEntry>,
                       config: map<string, Json>, h: string -> Hex64,
                       registryStatus: string -> int, urlStatus: string -> int, i: nat)
    requires |ref.parts| >= 1 && i < |layers|
    ensures var r := Assemble(pre, ref, configDigest, layers, config, h, registryStatus, urlStatus);
      var ds := Digests(layers);
      var ids := ChainIds(h, ds);
      r.Success? ==>
        && BlobSource(layers[i], registryStatus, urlStatus).Success?
        && LayerMeta(config, ds, ids, i).Success?
        && LayerStaged(r.value.tree, ids[i], BlobSource(layers[i], registryStatus, urlStatus).value,
                       LayerMeta(config, ds, ids, i).value)
  {
    var tmp := WithConfig(pre, configDigest);
    var staged := StagePrefix(tmp, layers, config, h, registryStatus, urlStatus, |layers|);
    if staged.Success? {
      var ds := Digests(layers);
      var ids := ChainIds(h, ds);
      StagedLayersIntact(tmp, layers, config, h, registryStatus, urlStatus, i);
      var s := staged.value;
      StagedUnderIndexes(s.tree, ids[i], BlobSource(layers[i], registryStatus, urlStatus).value,
                         LayerMeta(config, ds, ids, i).value,
                         File(Doc(ManifestIndex(ref, configDigest, s.layerPaths))),
                         File(Doc(RepositoriesIndex(ref, s.parentId))));
    }
  }

  /** The config file's name holds a '.', which no layer id does. */
  lemma ConfigNameNotId(configDigest: string, id: Hex64)
    ensures ConfigName(configDigest) != id
  {
    var c := ConfigName(configDigest);
    assert c[|c| - 5] == '.' && !IsHexDigit('.');
  }

  /** The config file's name ends in `.json`, so it is never `repositories`. */
  lemma ConfigNameNotRepositories(configDigest: string)
    ensures ConfigName(configDigest) != "repositories"
  {
    var c := ConfigName(configDigest);
    assert c[|c| - 1] == 'n';
  }

  /**
   * The config file keeps the blob the registry returned, unless the
   * digest is `sha256:manifest` and `manifest.json` overwrites it.
   */
  lemma AssembleConfigFile(pre: Tree, ref: ImageRef, configDigest: string, layers: seq<LayerEntry>,
                           config: map<string, Json>, h: string -> Hex64,
                           registryStatus: string -> int, urlStatus: string -> int)
    requires |ref.parts| >= 1
    requires ConfigName(configDigest) != "manifest.json"
    ensures var r := Assemble(pre, ref, configDigest, layers, config, h, registryStatus, urlStatus);
      var p := Top(ConfigName(configDigest));
      r.Success? ==> p in r.value.tree && r.value.tree[p] == File(Raw(Registry(configDigest)))
  {
    var tmp := WithConfig(pre, configDigest);
    var p := Top(ConfigName(configDigest));
    var staged := StagePrefix(tmp, layers, config, h, registryStatus, urlStatus, |layers|);
    if staged.Success? {
      var ids := ChainIds(h, Digests(layers));
      forall i | 0 <= i < |layers| ensures p !in LayerPaths(ids[i]) {
        ConfigNameNotId(configDigest, ids[i]);
      }
      StagedElsewhere(tmp, layers, config, h, registryStatus, urlStatus, p);
      ConfigNameNotRepositories(configDigest);
    }
  }

  /**
   * In a fresh `tmp` no layer directory is ever taken when the hash has no
   * collision on the strings the layer chain hashes: the assembly then
   * succeeds exactly when the manifest has a layer, every blob downloads,
   * and the config can be stripped.
   */
  lemma FreshAssembleSucceeds(ref: ImageRef, configDigest: string, layers: seq<LayerEntry>,
                              config: map<string, Json>, h: string -> Hex64,
                              registryStatus: string -> int, urlStatus: string -> int)
    requires |ref.parts| >= 1
    requires CollisionFreeOn(h, Digests(layers))
    ensures Assemble(map[], ref, configDigest, layers, config, h, registryStatus, urlStatus).Success?
        <==> && |layers| > 0
             && StripConfig(config).Success?
             && forall i :: 0 <= i < |layers| ==> BlobSource(layers[i], registryStatus, urlStatus).Success?
  {
    var tmp := WithConfig(map[], configDigest);
    var ds := Digests(layers);
    var ids := ChainIds(h, ds);
    AssembleSucceeds(map[], ref, configDigest, layers, config, h, registryStatus, urlStatus);
    ChainIdsDistinct(h, ds);
    forall i | 0 <= i < |layers| ensures !Collides(tmp, ids, i) {
      ConfigNameNotId(configDigest, ids[i]);
      assert Top(ids[i]) !in tmp;
      assert ids[i] !in ids[..i];
    }
    AllMetaSucceed(config, ds, ids);
  }
}

=== FILE: json.dfy ===
/** JSON values as the script's `json.loads` produces them; objects are maps. */
module Json {
  datatype Json =
    | JNull
    | JBool(b: bool)
    | JNum(n: int)
    | JStr(s: string)
    | JArr(items: seq<Json>)
    | JObj(fields: map<string, Json>)
}

=== FILE: layers.dfy ===
/**
 * The legacy layer identifiers and the per-layer `json` metadata of the
 * `docker save` layout. A layer's id is the SHA-256 hex digest of
 * `parent + "\n" + digest + "\n"`, where parent is the previous layer's id
 * (the empty string for the bottom layer). SHA-256 itself is a parameter
 * `h`; what is known of it is that its hex digest has 64 hex characters.
 */
module Layers {
  import opened Wrappers
  import opened Errors
  import opened Json

  predicate IsHexDigit(c: char)
  {
    '0' <= c <= '9' || 'a' <= c <= 'f'
  }

  /** The value of `hashlib.sha256(...).hexdigest()`. */
  type Hex64 = s: string | |s| == 64 && forall i :: 0 <= i < |s| ==> IsHexDigit(s[i])
    witness seq(64, _ => '0')

  /** `sha256(parent + '\n' + digest + '\n').hexdigest()` */
  function LegacyId(h: string -> Hex64, parent: string, digest: string): Hex64
  {
    h(parent + "\n" + digest + "\n")
  }

  /** The id of the layer before layer `i`, or "" for the bottom layer. */
  function ParentOf(ids: seq<Hex64>, i: nat): string
    requires i <= |ids|
  {
    if i == 0 then "" else ids[i - 1]
  }

  /** The string hashed for layer `i`: its parent's id and its digest, each followed by a newline. */
  function ChainInput(ids: seq<Hex64>, ds: seq<string>, i: nat): string
    requires |ids| == |ds| && i < |ds|
  {
    ParentOf(ids, i) + "\n" + ds[i] + "\n"
  }

  /**
   * The assumption under which distinct layers get distinct ids: `h` has
   * no collision among the finitely many strings the chain of `ds` hashes.
   * (No function from all strings to 64 hex digits is injective, so the
   * assumption is made on these inputs only.)
   */
  ghost predicate CollisionFreeOn(h: string -> Hex64, ds: seq<string>)
  {
    var ids := ChainIds(h, ds);
    forall i, j :: 0 <= i < |ds| && 0 <= j < |ds| && h(ChainInput(ids, ds, i)) == h(ChainInput(ids, ds, j)) ==>
      ChainInput(ids, ds, i) == ChainInput(ids, ds, j)
  }

  /** The ids of all layers, bottom first, each chained to the one before. */
  function ChainIds(h: string -> Hex64, ds: seq<string>): (ids: seq<Hex64>)
    ensures |ids| == |ds|
    decreases |ds|
  {
    if ds == [] then []
    else
      var below := ChainIds(h, ds[..|ds| - 1]);
      below + [LegacyId(h, ParentOf(below, |below|), ds[|ds| - 1])]
  }

  /**
   * The ids of the bottom `k` layers depend on those layers' digests only:
   * the whole chain can be computed ahead of time and layers added on top
   * leave the ids below unchanged.
   */
  lemma {:induction false} ChainIdsPrefix(h: string -> Hex64, ds: seq<string>, k: nat)
    requires k <= |ds|
    ensures ChainIds(h, ds[..k]) == ChainIds(h, ds)[..k]
    decreases |ds|
  {
    if k < |ds| {
      var below := ds[..|ds| - 1];
      assert ds[..k] == below[..k];
      ChainIdsPrefix(h, below, k);
    } else {
      assert ds[..k] == ds;
    }
  }

  /** Each id is the hash of its parent's id and its own digest. */
  lemma {:induction false} ChainIdAt(h: string -> Hex64, ds: seq<string>, i: nat)
    requires i < |ds|
    ensures var ids := ChainIds(h, ds);
      ids[i] == LegacyId(h, ParentOf(ids, i), ds[i])
  {
    var ids := ChainIds(h, ds);
    ChainIdsPrefix(h, ds, i + 1);
    ChainIdsPrefix(h, ds, i);
    var upto := ds[..i + 1];
    assert upto[..|upto| - 1] == ds[..i];
    assert ChainIds(h, upto) == ids[..i] + [LegacyId(h, ParentOf(ids[..i], i), ds[i])];
    assert ids[i] == ChainIds(h, upto)[i];
  }

  /** Two layers i < j get different ids when the hash has no collision on the chain's inputs. */
  lemma {:induction false} DistinctPair(h: string -> Hex64, ds: seq<string>, i: nat, j: nat)
    requires CollisionFreeOn(h, ds)
    requires i < j < |ds|
    ensures ChainIds(h, ds)[i] != ChainIds(h, ds)[j]
    decreases i
  {
    var ids := ChainIds(h, ds);
    ChainIdAt(h, ds, i);
    ChainIdAt(h, ds, j);
    var a := ChainInput(ids, ds, i);
    var b := ChainInput(ids, ds, j);
    assert b[..64] == ids[j - 1];
    if i == 0 {
      assert a[0] == '\n' && IsHexDigit(b[0]);
    } else {
      DistinctPair(h, ds, i - 1, j - 1);
      assert a[..64] == ids[i - 1];
    }
    assert a != b;
  }

  /** The assumption can be met: a single layer's chain hashes one string only. */
  lemma CollisionFreeOnOne(h: string -> Hex64, d: string)
    ensures CollisionFreeOn(h, [d])
  {
  }

  /**
   * With no collision on the chain's inputs no two layers share an id, not even two
   * layers with the same digest: each layer directory is new.
   */
  lemma ChainIdsDistinct(h: string -> Hex64, ds: seq<string>)
    requires CollisionFreeOn(h, ds)
    ensures var ids := ChainIds(h, ds);
      forall i, j :: 0 <= i < j < |ids| ==> ids[i] != ids[j]
  {
    forall i, j | 0 <= i < j < |ds| ensures ChainIds(h, ds)[i] != ChainIds(h, ds)[j] {
      DistinctPair(h, ds, i, j);
    }
  }

  // ----- Per-layer metadata -----

  /** The `container_config` of the empty stub: blank strings, false flags, null lists. */
  const EmptyContainerConfig: map<string, Json> := map[
    "Hostname" := JStr(""),
    "Domainname" := JStr(""),
    "User" := JStr(""),
    "AttachStdin" := JBool(false),
    "AttachStdout" := JBool(false),
    "AttachStderr" := JBool(false),
    "Tty" := JBool(false),
    "OpenStdin" := JBool(false),
    "StdinOnce" := JBool(false),
    "Env" := JNull,
    "Cmd" := JNull,
    "Image" := JStr(""),
    "Volumes" := JNull,
    "WorkingDir" := JStr(""),
    "Entrypoint" := JNull,
    "OnBuild" := JNull,
    "Labels" := JNull]

  /** The metadata of every layer but the last: an empty container configuration. */
  const EmptyStub: map<string, Json> := map[
    "created" := JStr("1970-01-01T00:00:00Z"),
    "container_config" := JObj(EmptyContainerConfig)]

  /**
   * The image config without `history` and without `rootfs`, or `rootfS`
   * when `rootfs` is absent; deleting a missing key fails.
   */
  function StripConfig(config: map<string, Json>): Result<map<string, Json>, Error>
  {
    if "history" !in config then Failure(MissingKey("history"))
    else
      var withoutHistory := config - {"history"};
      if "rootfs" in withoutHistory then
        Success(withoutHistory - {"rootfs"})
      else if "rootfS" in withoutHistory then
        Success(withoutHistory - {"rootfS"})
      else Failure(MissingKey("rootfS"))
  }

  /**
   * Stripping succeeds exactly when the config has `history` and a
   * root-filesystem key; it removes `history` and `rootfs` (or `rootfS` when
   * `rootfs` is absent) and keeps every other key with its value.
   */
  lemma StripConfigSpec(config: map<string, Json>)
    ensures var r := StripConfig(config);
      && (r.Success? <==> "history" in config && ("rootfs" in config || "rootfS" in config))
      && ("history" !in config ==> r == Failure(MissingKey("history")))
      && (r.Success? ==> "history" !in r.value && "rootfs" !in r.value)
      && (r.Success? ==> ("rootfS" in r.value <==> "rootfs" in config && "rootfS" in config))
      && (r.Success? ==> r.value.Keys == config.Keys - {"history", if "rootfs" in config then "rootfs" else "rootfS"})
      && (r.Success? ==> forall k :: k in r.value ==> r.value[k] == config[k])
  {
  }

  /** `json_obj['id'] = id`, then `json_obj['parent'] = parent` when `parent` is not empty. */
  function WithIds(base: map<string, Json>, id: string, parent: string): map<string, Json>
  {
    var m := base["id" := JStr(id)];
    if parent != "" then m["parent" := JStr(parent)] else m
  }

  /**
   * The `json` file of a layer: the stripped config when `copiesConfig`,
   * the empty stub otherwise, then the layer's id and its parent's id.
   */
  function MetaFor(config: map<string, Json>, copiesConfig: bool, id: string, parent: string): Result<map<string, Json>, Error>
  {
    var base := if copiesConfig then StripConfig(config) else Success(EmptyStub);
    if base.Failure? then Failure(base.error)
    else Success(WithIds(base.value, id, parent))
  }

  /**
   * The metadata of layer `i`: the config is copied into every layer whose
   * digest equals the last layer's digest, which is a test on digests and
   * not on positions.
   */
  function LayerMeta(config: map<string, Json>, ds: seq<string>, ids: seq<Hex64>, i: nat): Result<map<string, Json>, Error>
    requires |ids| == |ds| && i < |ds|
  {
    MetaFor(config, ds[|ds| - 1] == ds[i], ids[i], ParentOf(ids, i))
  }

  /**
   * The script's construction of a layer's metadata: `json.loads` of the
   * config or of the stub, `del` of `history` and of `rootfs` (or `rootfS`),
   * then the `id` and `parent` assignments.
   */
  method BuildMeta(config: map<string, Json>, copiesConfig: bool, id: string, parent: string)
    returns (r: Result<map<string, Json>, Error>)
    ensures r == MetaFor(config, copiesConfig, id, parent)
  {
    var obj: map<string, Json>;
    if copiesConfig {
      obj := config;
      if "history" !in obj {
        return Failure(MissingKey("history"));
      }
      obj := obj - {"history"};
      if "rootfs" in obj {
        obj := obj - {"rootfs"};
      } else if "rootfS" in obj {
        obj := obj - {"rootfS"};
      } else {
        return Failure(MissingKey("rootfS"));
      }
    } else {
      obj := EmptyStub;
    }
    obj := obj["id" := JStr(id)];
    if parent != "" {
      obj := obj["parent" := JStr(parent)];
    }
    r := Success(obj);
  }

  /**
   * Only the config-derived metadata can fail, and then exactly when the
   * config lacks `history` or both root-filesystem keys.
   */
  lemma LayerMetaSucceeds(config: map<string, Json>, ds: seq<string>, ids: seq<Hex64>, i: nat)
    requires |ids| == |ds| && i < |ds|
    ensures LayerMeta(config, ds, ids, i).Success? <==> ds[|ds| - 1] != ds[i] || StripConfig(config).Success?
  {
  }

  /**
   * Every layer's metadata carries its own id and, above the bottom layer,
   * its parent's id; the bottom layer has a `parent` only when it copies a
   * config that has one.
   */
  lemma LayerMetaIds(config: map<string, Json>, ds: seq<string>, ids: seq<Hex64>, i: nat)
    requires |ids| == |ds| && i < |ds|
    ensures var m := LayerMeta(config, ds, ids, i);
      m.Success? ==>
        && m.value["id"] == JStr(ids[i])
        && (i > 0 ==> m.value["parent"] == JStr(ids[i - 1]))
        && (i == 0 ==> ("parent" in m.value <==> ds[|ds| - 1] == ds[i] && "parent" in config))
  {
    if i > 0 {
      assert |ids[i - 1]| == 64;
    } else {
      assert "parent" !in EmptyStub;
    }
  }

  /**
   * A layer whose digest is the last layer's digest carries the config
   * minus `history` and `rootfs` (or `rootfS` when `rootfs` is absent),
   * as its exact key set says: every other key of the
   * config is kept with its value, and nothing else is added besides the
   * ids. The bottom layer gets no `parent` of its own, so a `parent` in
   * the config stays there unchanged.
   */
  lemma LayerMetaFromConfig(config: map<string, Json>, ds: seq<string>, ids: seq<Hex64>, i: nat)
    requires |ids| == |ds| && i < |ds| && ds[|ds| - 1] == ds[i]
    ensures var m := LayerMeta(config, ds, ids, i);
      m.Success? ==>
        && "history" !in m.value && "rootfs" !in m.value
        && m.value.Keys == (config.Keys - {"history", if "rootfs" in config then "rootfs" else "rootfS"})
                           + {"id"} + (if i > 0 then {"parent"} else {})
        && (forall k :: k in m.value && k != "id" && (i > 0 ==> k != "parent") ==> k in config && m.value[k] == config[k])
        && (forall k :: k in config - {"history", if "rootfs" in config then "rootfs" else "rootfS", "id"}
                                    - (if i > 0 then {"parent"} else {}) ==>
                          k in m.value && m.value[k] == config[k])
  {
  }

  /** Every other layer carries the empty stub and nothing else besides its ids. */
  lemma LayerMetaFromStub(config: map<string, Json>, ds: seq<string>, ids: seq<Hex64>, i: nat)
    requires |ids| == |ds| && i < |ds| && ds[|ds| - 1] != ds[i]
    ensures var m := LayerMeta(config, ds, ids, i);
      m.Success? && m.value - {"id", "parent"} == EmptyStub
  {
    var m := WithIds(EmptyStub, ids[i], ParentOf(ids, i));
    assert "id" !in EmptyStub && "parent" !in EmptyStub;
    assert m - {"id", "parent"} == EmptyStub;
  }

  /**
   * All layers get metadata exactly when the list is empty or the config
   * has `history` and a root-filesystem key.
   */
  lemma AllMetaSucceed(config: map<string, Json>, ds: seq<string>, ids: seq<Hex64>)
    requires |ids| == |ds|
    ensures (forall i :: 0 <= i < |ds| ==> LayerMeta(config, ds, ids, i).Success?)
      <==> (ds == [] || StripConfig(config).Success?)
  {
    forall i | 0 <= i < |ds| {
      LayerMetaSucceeds(config, ds, ids, i);
    }
    if ds != [] {
      LayerMetaSucceeds(config, ds, ids, |ds| - 1);
    }
  }
}

=== FILE: manifest.dfy ===
/**
 * Fetching the image manifest: a manifest list (multi-architecture image)
 * is narrowed to one entry by the platform-selection policy and that
 * entry's manifest is fetched by digest; the final document must have
 * `layers`. Responses are inputs; the HTTP requests are not modelled.
 */
module Manifest {
  import opened Wrappers
  import opened Errors

  /** The `platform` object of a manifest-list entry; a key may be absent. */
  datatype PlatformInfo = PlatformInfo(os: Option<string>, architecture: Option<string>)

  /** An entry of `manifests` in a manifest list. */
  datatype Descriptor = Descriptor(digest: string, platform: Option<PlatformInfo>)

  /** An entry of `layers`: its digest and its optional foreign `urls`. */
  datatype LayerEntry = LayerEntry(digest: string, urls: Option<seq<string>>)

  /** The keys of a manifest JSON document that the script reads. */
  datatype ManifestDoc = ManifestDoc(
    manifests: Option<seq<Descriptor>>,
    layers: Option<seq<LayerEntry>>,
    configDigest: Option<string>)

  /** A registry response: its status and its body, None when it is not JSON. */
  datatype Response = Response(status: int, body: Option<ManifestDoc>)

  /** `platform.get('os') == os and platform.get('architecture') == arch`, with `{}` for a missing platform. */
  predicate Matches(d: Descriptor, os: string, arch: string)
  {
    d.platform.Some? && d.platform.value.os == Some(os) && d.platform.value.architecture == Some(arch)
  }

  /** The first entry at or after `from` whose platform is `os`/`arch`. */
  function FirstMatch(ms: seq<Descriptor>, os: string, arch: string, from: nat): (k: Option<nat>)
    requires from <= |ms|
    ensures k.Some? ==> from <= k.value < |ms| && Matches(ms[k.value], os, arch)
    ensures k.Some? ==> forall j :: from <= j < k.value ==> !Matches(ms[j], os, arch)
    ensures k.None? ==> forall j :: from <= j < |ms| ==> !Matches(ms[j], os, arch)
    decreases |ms| - from
  {
    if from == |ms| then None
    else if Matches(ms[from], os, arch) then Some(from)
    else FirstMatch(ms, os, arch, from + 1)
  }

  /**
   * The selection policy: the requested platform, else windows/amd64,
   * else the first entry; None only for an empty list.
   */
  function Selection(ms: seq<Descriptor>, os: string, arch: string): Option<nat>
  {
    var exact := FirstMatch(ms, os, arch, 0);
    if exact.Some? then exact
    else
      var windows := FirstMatch(ms, "windows", "amd64", 0);
      if windows.Some? then windows
      else if |ms| > 0 then Some(0)
      else None
  }

  /**
   * What the policy promises: the pick is an entry of the list; it is the
   * first exact match when there is one, otherwise the first windows/amd64
   * entry when there is one, otherwise entry 0; an entry without a
   * platform is picked only as that last resort.
   */
  lemma SelectionPolicy(ms: seq<Descriptor>, os: string, arch: string)
    ensures var s := Selection(ms, os, arch);
      && (s.None? <==> ms == [])
      && (s.Some? ==> s.value < |ms|)
      && ((exists i :: 0 <= i < |ms| && Matches(ms[i], os, arch)) ==>
            s.Some? && Matches(ms[s.value], os, arch)
            && forall j :: 0 <= j < s.value ==> !Matches(ms[j], os, arch))
      && ((exists i :: 0 <= i < |ms| && Matches(ms[i], "windows", "amd64"))
          && (forall i :: 0 <= i < |ms| ==> !Matches(ms[i], os, arch)) ==>
            s.Some? && Matches(ms[s.value], "windows", "amd64")
            && forall j :: 0 <= j < s.value ==> !Matches(ms[j], "windows", "amd64"))
      && (ms != [] && (forall i :: 0 <= i < |ms| ==> !Matches(ms[i], os, arch) && !Matches(ms[i], "windows", "amd64"))
          ==> s == Some(0))
      && (s.Some? && ms[s.value].platform.None? ==>
            s.value == 0 && forall i :: 0 <= i < |ms| ==> !Matches(ms[i], os, arch) && !Matches(ms[i], "windows", "amd64"))
  {
  }

  /** The three `for ... break` passes of the script over `manifests`. */
  method SelectManifest(ms: seq<Descriptor>, os: string, arch: string) returns (selected: Option<nat>)
    ensures selected == Selection(ms, os, arch)
  {
    selected := None;
    var i := 0;
    while i < |ms|
      invariant 0 <= i <= |ms|
      invariant forall j :: 0 <= j < i ==> !Matches(ms[j], os, arch)
    {
      if Matches(ms[i], os, arch) {
        selected := Some(i);
        break;
      }
      i := i + 1;
    }
    if selected.None? {
      i := 0;
      while i < |ms|
        invariant 0 <= i <= |ms|
        invariant forall j :: 0 <= j < i ==> !Matches(ms[j], "windows", "amd64")
      {
        if Matches(ms[i], "windows", "amd64") {
          selected := Some(i);
          break;
        }
        i := i + 1;
      }
    }
    if selected.None? && |ms| > 0 {
      selected := Some(0);
    }
  }

  /** A document is usable only if it has `layers`. */
  function RequireLayers(doc: ManifestDoc): (r: Result<ManifestDoc, Error>)
    ensures r.Success? <==> doc.layers.Some?
    ensures r.Success? ==> r.value == doc
  {
    if doc.layers.None? then Failure(MissingKey("layers")) else Success(doc)
  }

  /**
   * The manifest negotiation: `first` answers the request by tag, and
   * `byDigest` gives the response for a per-platform manifest digest.
   */
  function Resolve(first: Response, byDigest: string -> Response, os: string, arch: string): (r: Result<ManifestDoc, Error>)
    ensures r.Success? <==>
      && first.status == 200 && first.body.Some?
      && (first.body.value.manifests.None? ==> first.body.value.layers.Some?)
      && (first.body.value.manifests.Some? ==>
            var ms := first.body.value.manifests.value;
            var k := Selection(ms, os, arch);
            && k.Some? && k.value < |ms| && ms[k.value].platform.Some?
            && byDigest(ms[k.value].digest).status == 200
            && byDigest(ms[k.value].digest).body.Some?
            && byDigest(ms[k.value].digest).body.value.layers.Some?)
    ensures first.status != 200 ==> r == Failure(ManifestStatus(first.status))
    ensures first.status == 200 && first.body.None? ==> r == Failure(UnparsableManifest)
    ensures first.status == 200 && first.body.Some? && first.body.value.manifests.None? && first.body.value.layers.None? ==>
      r == Failure(MissingKey("layers"))
    ensures first.status == 200 && first.body.Some? && first.body.value.manifests == Some([]) ==>
      r == Failure(EmptyManifestList)
    ensures first.status == 200 && first.body.Some? && first.body.value.manifests.Some? ==>
      var ms := first.body.value.manifests.value;
      var k := Selection(ms, os, arch);
      k.Some? && k.value < |ms| ==>
        var second := byDigest(ms[k.value].digest);
        && (ms[k.value].platform.None? ==> r == Failure(MissingKey("platform")))
        && (ms[k.value].platform.Some? && second.status != 200 ==> r == Failure(ListedManifestStatus(second.status)))
        && (ms[k.value].platform.Some? && second.status == 200 && second.body.None? ==> r == Failure(UnparsableManifest))
        && (ms[k.value].platform.Some? && second.status == 200 && second.body.Some? && second.body.value.layers.None? ==>
              r == Failure(MissingKey("layers")))
    ensures r.Success? ==> r.value.layers.Some?
    ensures r.Success? && first.body.Some? && first.body.value.manifests.None? ==> r.value == first.body.value
    ensures r.Success? && first.body.Some? && first.body.value.manifests.Some? ==>
      var ms := first.body.value.manifests.value;
      var k := Selection(ms, os, arch);
      && k.Some? && k.value < |ms|
      && ms[k.value].platform.Some?
      && byDigest(ms[k.value].digest).status == 200
      && byDigest(ms[k.value].digest).body == Some(r.value)
  {
    if first.status != 200 then Failure(ManifestStatus(first.status))
    else if first.body.None? then Failure(UnparsableManifest)
    else
      var doc := first.body.value;
      if doc.manifests.None? then RequireLayers(doc)
      else
        var ms := doc.manifests.value;
        var k := Selection(ms, os, arch);
        SelectionPolicy(ms, os, arch);
        if k.None? then Failure(EmptyManifestList)
        else if ms[k.value].platform.None? then Failure(MissingKey("platform"))
        else
          var second := byDigest(ms[k.value].digest);
          if second.status != 200 then Failure(ListedManifestStatus(second.status))
          else if second.body.None? then Failure(UnparsableManifest)
          else RequireLayers(second.body.value)
  }

  /**
   * The script's steps in order: the status check, the JSON parse, the
   * manifest-list branch with its selection passes and second request,
   * and the `layers` check.
   */
  method FetchManifest(first: Response, byDigest: string -> Response, os: string, arch: string)
    returns (r: Result<ManifestDoc, Error>)
    ensures r == Resolve(first, byDigest, os, arch)
  {
    if first.status != 200 {
      return Failure(ManifestStatus(first.status));
    }
    if first.body.None? {
      return Failure(UnparsableManifest);
    }
    var doc := first.body.value;
    if doc.manifests.Some? {
      var ms := doc.manifests.value;
      var selected := SelectManifest(ms, os, arch);
      if selected.None? {
        return Failure(EmptyManifestList);
      }
      if ms[selected.value].platform.None? {
        return Failure(MissingKey("platform"));
      }
      var second := byDigest(ms[selected.value].digest);
      if second.status != 200 {
        return Failure(ListedManifestStatus(second.status));
      }
      if second.body.None? {
        return Failure(UnparsableManifest);
      }
      doc := second.body.value;
    }
    if doc.layers.None? {
      return Failure(MissingKey("layers"));
    }
    r := Success(doc);
  }

  /**
   * The three cases of the selection policy, on the list
   * [linux/arm64, linux/amd64, windows/amd64] and on [linux/arm64] alone.
   */
  lemma SelectionExamples()
    ensures var arm := Descriptor("sha256:a", Some(PlatformInfo(Some("linux"), Some("arm64"))));
      var amd := Descriptor("sha256:b", Some(PlatformInfo(Some("linux"), Some("amd64"))));
      var win := Descriptor("sha256:c", Some(PlatformInfo(Some("windows"), Some("amd64"))));
      && Selection([arm, amd, win], "linux", "amd64") == Some(1)
      && Selection([arm, amd, win], "linux", "386") == Some(2)
      && Selection([arm], "linux", "amd64") == Some(0)
  {
  }
}

=== FILE: pull.dfy ===
/**
 * The whole run of docker_pull.py for one `--image` and `--platform`:
 * parse the platform and the reference, probe the registry, resolve the
 * manifest, then write the config, the layers and the two indexes into
 * `tmp`. What the registry answers is an input (`Responses`); the hash
 * that names layer directories is the parameter `h`.
 */
module Pull {
  import opened Wrappers
  import opened Errors
  import opened Json
  import opened Reference
  import opened Auth
  import opened Manifest
  import opened Layers
  import opened Archive
  import opened Image

  /**
   * The registry's answers: the status and WWW-Authenticate header of the
   * probe of `/v2/`, the manifest by tag, the manifest by digest, the
   * status of each blob and of each foreign URL, and the config blob as
   * a JSON object.
   */
  datatype Responses = Responses(
    probeStatus: int,
    challenge: Option<string>,
    manifest: Response,
    manifestByDigest: string -> Response,
    blobStatus: string -> int,
    urlStatus: string -> int,
    config: map<string, Json>)

  /** The outcome of the run: the first failing step's error, or the archive contents and the tar's name. */
  function PullOutcome(image: string, platform: string, net: Responses, h: string -> Hex64, pre: Tree): Result<Pulled, Error>
  {
    match ParsePlatform(platform)
    case Failure(e) => Failure(e)
    case Success(p) =>
      var ref := ParseReference(image);
      match ReadChallenge(net.probeStatus, net.challenge)
      case Failure(e) => Failure(e)
      case Success(_) =>
        match Resolve(net.manifest, net.manifestByDigest, p.os, p.arch)
        case Failure(e) => Failure(e)
        case Success(doc) =>
          if doc.configDigest.None? then Failure(MissingKey("config"))
          else Assemble(pre, ref, doc.configDigest.value, doc.layers.value, net.config, h,
                        net.blobStatus, net.urlStatus)
  }

  /** The script, step by step, from the argument parsing to the `repositories` file. */
  method Pull(image: string, platform: string, net: Responses, h: string -> Hex64, pre: Tree)
    returns (r: Result<Pulled, Error>)
    ensures r == PullOutcome(image, platform, net, h, pre)
  {
    var p := ParsePlatform(platform);
    if p.Failure? {
      return Failure(p.error);
    }
    var ref := ParseReference(image);
    var service := ReadChallenge(net.probeStatus, net.challenge);
    if service.Failure? {
      return Failure(service.error);
    }
    var doc := FetchManifest(net.manifest, net.manifestByDigest, p.value.os, p.value.arch);
    if doc.Failure? {
      return Failure(doc.error);
    }
    if doc.value.configDigest.None? {
      return Failure(MissingKey("config"));
    }
    var configDigest := doc.value.configDigest.value;
    var layers := doc.value.layers.value;
    var tmp := WithConfig(pre, configDigest);
    var staged := StageLayers(tmp, layers, net.config, h, net.blobStatus, net.urlStatus);
    if staged.Failure? {
      return Failure(staged.error);
    }
    var tree := staged.value.tree[Top("manifest.json") := File(Doc(ManifestIndex(ref, configDigest, staged.value.layerPaths)))];
    if |layers| == 0 {
      return Failure(NoLayers);
    }
    tree := tree[Top("repositories") := File(Doc(RepositoriesIndex(ref, staged.value.parentId)))];
    r := Success(Pulled(tree, TarName(ref)));
  }

  /**
   * The early exits: a platform without '/', a 401 probe whose header is
   * missing or has no quote, and a manifest request that does not return
   * 200 each end the run with their own error.
   */
  lemma PullEarlyFailures(image: string, platform: string, net: Responses, h: string -> Hex64, pre: Tree)
    ensures '/' !in platform ==> PullOutcome(image, platform, net, h, pre) == Failure(BadPlatform(platform))
    ensures '/' in platform && net.probeStatus == 401 && net.challenge.None? ==>
              PullOutcome(image, platform, net, h, pre) == Failure(MissingKey("WWW-Authenticate"))
    ensures '/' in platform && net.probeStatus == 401 && net.challenge.Some? && '"' !in net.challenge.value ==>
              PullOutcome(image, platform, net, h, pre) == Failure(MissingRealm(net.challenge.value))
    ensures '/' in platform && (net.probeStatus != 401 || (net.challenge.Some? && '"' in net.challenge.value))
            && net.manifest.status != 200 ==>
              PullOutcome(image, platform, net, h, pre) == Failure(ManifestStatus(net.manifest.status))
  {
    ParsePlatformSpec(platform, "", "", None);
    ChallengeNeedsQuote(net.challenge);
  }

  /**
   * A run succeeds exactly when every step does: the platform parses, the
   * probe's challenge is readable, the manifest resolves for that
   * platform and names a config, and the archive assembles; the result is
   * then an archive holding both indexes, named after the reference.
   */
  lemma PullSteps(image: string, platform: string, net: Responses, h: string -> Hex64, pre: Tree)
    ensures var r := PullOutcome(image, platform, net, h, pre);
      var p := ParsePlatform(platform);
      var ref := ParseReference(image);
      var doc := if p.Success? then Resolve(net.manifest, net.manifestByDigest, p.value.os, p.value.arch)
                 else Failure(BadPlatform(platform));
      r.Success? <==>
        && p.Success?
        && ReadChallenge(net.probeStatus, net.challenge).Success?
        && doc.Success? && doc.value.configDigest.Some?
        && Assemble(pre, ref, doc.value.configDigest.value, doc.value.layers.value, net.config, h,
                    net.blobStatus, net.urlStatus).Success?
    ensures var r := PullOutcome(image, platform, net, h, pre);
      r.Success? ==>
        && r.value.fileName == TarName(ParseReference(image))
        && Top("manifest.json") in r.value.tree
        && Top("repositories") in r.value.tree
  {
    var r := PullOutcome(image, platform, net, h, pre);
    if r.Success? {
      var p := ParsePlatform(platform).value;
      var ref := ParseReference(image);
      var doc := Resolve(net.manifest, net.manifestByDigest, p.os, p.arch).value;
      AssembleIndexes(pre, ref, doc.configDigest.value, doc.layers.value, net.config, h, net.blobStatus, net.urlStatus);
    }
  }
}

=== FILE: reference.dfy ===
/**
 * The --platform and --image arguments of docker_pull.py: the platform is
 * cut into an os and an architecture, and the image reference into a
 * registry host, a repository path, an image name and a tag (or digest).
 */
module Reference {
  import opened Wrappers
  import opened Errors
  import opened Text

  const DefaultRegistry := "registry-1.docker.io"
  const DefaultRepo := "library"
  const DefaultTag := "latest"

  datatype Platform = Platform(os: string, arch: string)

  /** `platform.split("/")[0]` and `[1]`; the second index fails without a '/'. */
  function ParsePlatform(platform: string): (r: Result<Platform, Error>)
    ensures r.Success? ==> '/' !in r.value.os && '/' !in r.value.arch
    ensures r.Failure? <==> '/' !in platform
    ensures r.Failure? ==> r.error == BadPlatform(platform)
  {
    var parts := Split(platform, '/');
    SplitPiecesFree(platform, '/');
    SplitCount(platform, '/');
    if |parts| < 2 then Failure(BadPlatform(platform))
    else Success(Platform(parts[0], parts[1]))
  }

  /**
   * A platform parses exactly when it has a '/', and `os/arch` (with or
   * without a further `/variant`) gives back that os and architecture.
   */
  lemma {:induction false} ParsePlatformSpec(platform: string, os: string, arch: string, variant: Option<string>)
    requires '/' !in os && '/' !in arch
    ensures ParsePlatform(platform).Success? <==> '/' in platform
    ensures var p := os + "/" + arch + (if variant.Some? then "/" + variant.value else "");
            ParsePlatform(p) == Success(Platform(os, arch))
  {
    SplitCount(platform, '/');
    SplitNoSep(os, '/');
    SplitNoSep(arch, '/');
    var tail := arch + (if variant.Some? then "/" + variant.value else "");
    var p := os + "/" + arch + (if variant.Some? then "/" + variant.value else "");
    assert p == os + ['/'] + tail;
    SplitConcat(os, tail, '/');
    if variant.Some? {
      assert tail == arch + ['/'] + variant.value;
      SplitConcat(arch, variant.value, '/');
      assert Split(tail, '/') == [arch] + Split(variant.value, '/');
    } else {
      assert tail == arch;
    }
    assert Split(p, '/') == [os] + Split(tail, '/');
  }

  /**
   * The parsed --image value. `parts` is `image.split('/')`, kept because the
   * archive's tag names are built from it; `repository` is the path used in
   * every registry URL.
   */
  datatype ImageRef = ImageRef(
    parts: seq<string>,
    registry: string,
    repo: string,
    img: string,
    tag: string,
    repository: string)

  /**
   * The last path segment split into name and tag: first on '@', then on
   * ':', each used only when it yields exactly two pieces.
   */
  function SplitNameTag(last: string): (string, string)
  {
    var at := Split(last, '@');
    if |at| == 2 then (at[0], at[1])
    else
      var colon := Split(last, ':');
      if |colon| == 2 then (colon[0], colon[1])
      else (last, DefaultTag)
  }

  /** The reference parsing of docker_pull.py; it never fails. */
  function ParseReference(image: string): (r: ImageRef)
    ensures r.parts == Split(image, '/') && |r.parts| >= 1
    ensures '/' !in r.img && '/' !in r.tag
    ensures '.' in r.registry || ':' in r.registry
  {
    var parts := Split(image, '/');
    var n := |parts|;
    var last := parts[n - 1];
    SplitPiecesFree(image, '/');
    SplitPiecesFree(last, '@');
    SplitPiecesFree(last, ':');
    assert '/' !in last;
    NameTagNoSlash(last);
    var (img, tag) := SplitNameTag(last);
    var explicitHost := n > 1 && ('.' in parts[0] || ':' in parts[0]);
    var registry := if explicitHost then parts[0] else DefaultRegistry;
    assert '.' in DefaultRegistry;
    var repo :=
      if explicitHost then Join(parts[1..n - 1], '/')
      else if n - 1 != 0 then Join(parts[..n - 1], '/')
      else DefaultRepo;
    ImageRef(parts, registry, repo, img, tag, repo + "/" + img)
  }

  lemma NameTagNoSlash(last: string)
    requires '/' !in last
    ensures '/' !in SplitNameTag(last).0 && '/' !in SplitNameTag(last).1
  {
    var at := Split(last, '@');
    var colon := Split(last, ':');
    if |at| == 2 {
      assert Join(at, '@') == at[0] + ['@'] + at[1];
      JoinSplit(last, '@');
    } else if |colon| == 2 {
      assert Join(colon, ':') == colon[0] + [':'] + colon[1];
      JoinSplit(last, ':');
    }
  }

  /** The name the archive's `RepoTags` and `repositories` use: every segment but the last, then the image name. */
  function RepoName(r: ImageRef): string
    requires |r.parts| >= 1
  {
    var n := |r.parts|;
    if n - 1 != 0 then Join(r.parts[..n - 1], '/') + "/" + r.img else r.img
  }

  /** The single `RepoTags` entry of the archive manifest. */
  function RepoTag(r: ImageRef): string
    requires |r.parts| >= 1
  {
    RepoName(r) + ":" + r.tag
  }

  /** The output file name: the repository path with '_' for '/', then the image name; the tag plays no part. */
  function TarName(r: ImageRef): string
  {
    Replace(r.repo, '/', '_') + "_" + r.img + ".tar"
  }

  // ----- The reference forms a user writes, and what parsing makes of them -----

  /** What follows the image name: nothing, `:tag`, or `@digest`. */
  datatype Suffix = Untagged | Tagged(tag: string) | Pinned(digest: string)

  function SuffixText(s: Suffix): string
  {
    match s
    case Untagged => ""
    case Tagged(t) => ":" + t
    case Pinned(d) => "@" + d
  }

  function TagOf(s: Suffix): string
  {
    match s
    case Untagged => DefaultTag
    case Tagged(t) => t
    case Pinned(d) => d
  }

  function HostSegment(host: Option<string>): seq<string>
  {
    if host.Some? then [host.value] else []
  }

  /** `[host/]path.../name[:tag|@digest]` */
  function Render(host: Option<string>, path: seq<string>, name: string, suffix: Suffix): string
  {
    Join(HostSegment(host) + path + [name + SuffixText(suffix)], '/')
  }

  /**
   * A reference whose parts are what they claim to be: no segment holds a
   * '/', a host holds a '.' or a ':' (and the first path segment, when no
   * host is given, holds neither), the name holds no ':' or '@', a tag no
   * ':' or '@', and a digest no '@' (it may hold ':').
   */
  predicate WellFormed(host: Option<string>, path: seq<string>, name: string, suffix: Suffix)
  {
    && (host.Some? ==> '/' !in host.value && ('.' in host.value || ':' in host.value))
    && (forall i :: 0 <= i < |path| ==> '/' !in path[i])
    && (host.None? && |path| > 0 ==> '.' !in path[0] && ':' !in path[0])
    && '/' !in name && ':' !in name && '@' !in name
    && (suffix.Tagged? ==> '/' !in suffix.tag && ':' !in suffix.tag && '@' !in suffix.tag)
    && (suffix.Pinned? ==> '/' !in suffix.digest && '@' !in suffix.digest)
  }

  /** The expected repository path: the given path, or `library` when neither host nor path is given. */
  function RepoOf(host: Option<string>, path: seq<string>): string
  {
    if host.Some? || |path| > 0 then Join(path, '/') else DefaultRepo
  }

  lemma {:induction false} NameTagOfSuffix(name: string, suffix: Suffix)
    requires '/' !in name && ':' !in name && '@' !in name
    requires suffix.Tagged? ==> ':' !in suffix.tag && '@' !in suffix.tag
    requires suffix.Pinned? ==> '@' !in suffix.digest
    ensures SplitNameTag(name + SuffixText(suffix)) == (name, TagOf(suffix))
  {
    var last := name + SuffixText(suffix);
    SplitNoSep(name, '@');
    SplitNoSep(name, ':');
    match suffix
    case Untagged =>
      assert last == name;
    case Tagged(t) =>
      assert last == name + [':'] + t;
      SplitNoSep(t, '@');
      SplitNoSep(t, ':');
      SplitNoSep(last, '@');
      SplitConcat(name, t, ':');
    case Pinned(d) =>
      assert last == name + ['@'] + d;
      SplitNoSep(d, '@');
      SplitConcat(name, d, '@');
  }

  /**
   * A segment with exactly one '@' is split there, whatever ':' it holds:
   * the name is everything before the '@' and the tag everything after.
   */
  lemma SplitNameTagAt(last: string)
    requires multiset(last)['@'] == 1
    ensures var (img, tag) := SplitNameTag(last);
      img + "@" + tag == last && '@' !in img && '@' !in tag
  {
    var at := Split(last, '@');
    SplitCount(last, '@');
    SplitPiecesFree(last, '@');
    JoinSplit(last, '@');
    assert Join(at, '@') == at[0] + ['@'] + at[1];
  }

  /**
   * A segment without exactly one '@' but with exactly one ':' is split at
   * the ':', even when the name part then holds '@'.
   */
  lemma SplitNameTagColon(last: string)
    requires multiset(last)['@'] != 1 && multiset(last)[':'] == 1
    ensures var (img, tag) := SplitNameTag(last);
      img + ":" + tag == last && ':' !in img && ':' !in tag
  {
    var colon := Split(last, ':');
    SplitCount(last, '@');
    SplitCount(last, ':');
    SplitPiecesFree(last, ':');
    JoinSplit(last, ':');
    assert Join(colon, ':') == colon[0] + [':'] + colon[1];
  }

  /** A segment with neither exactly one '@' nor exactly one ':' is the name as a whole, tagged `latest`. */
  lemma SplitNameTagWhole(last: string)
    requires multiset(last)['@'] != 1 && multiset(last)[':'] != 1
    ensures SplitNameTag(last) == (last, DefaultTag)
  {
    SplitCount(last, '@');
    SplitCount(last, ':');
  }

  /** A well-formed reference splits at '/' back into its segments. */
  lemma RenderSplits(host: Option<string>, path: seq<string>, name: string, suffix: Suffix)
    requires WellFormed(host, path, name, suffix)
    ensures Split(Render(host, path, name, suffix), '/') == HostSegment(host) + path + [name + SuffixText(suffix)]
  {
    var segs := HostSegment(host) + path + [name + SuffixText(suffix)];
    var last := name + SuffixText(suffix);
    assert '/' !in last by {
      assert SuffixText(suffix) == [] || (SuffixText(suffix)[0] != '/' && SuffixText(suffix)[1..] == TagOf(suffix));
    }
    forall i | 0 <= i < |segs| ensures '/' !in segs[i] {
      if i == |segs| - 1 {
        assert segs[i] == last;
      } else if host.Some? && i == 0 {
      } else {
        assert segs[i] == path[i - |HostSegment(host)|];
      }
    }
    SplitJoin(segs, '/');
  }

  /**
   * Parsing recovers every part of a well-formed reference: the host (or
   * the public registry), the path (or `library`), the name, and the tag
   * (or digest, or `latest`); the repository is always `repo/name`.
   */
  lemma {:induction false} ParseRender(host: Option<string>, path: seq<string>, name: string, suffix: Suffix)
    requires WellFormed(host, path, name, suffix)
    ensures var r := ParseReference(Render(host, path, name, suffix));
      && r.registry == (if host.Some? then host.value else DefaultRegistry)
      && r.repo == RepoOf(host, path)
      && r.img == name
      && r.tag == TagOf(suffix)
      && r.repository == RepoOf(host, path) + "/" + name
      && r.parts == HostSegment(host) + path + [name + SuffixText(suffix)]
  {
    var segs := HostSegment(host) + path + [name + SuffixText(suffix)];
    RenderSplits(host, path, name, suffix);
    NameTagOfSuffix(name, suffix);
    var n := |segs|;
    assert segs[n - 1] == name + SuffixText(suffix);
    if host.Some? {
      assert segs[0] == host.value;
      assert segs[1..n - 1] == path;
    } else {
      assert segs[..n - 1] == path;
      assert n > 1 ==> segs[0] == path[0];
    }
  }

  /**
   * A host with no path in front of the name leaves the repository path
   * empty: `host/name` gives repository `/name` and file `_name.tar`.
   */
  lemma HostWithoutPath(host: string, name: string, suffix: Suffix)
    requires WellFormed(Some(host), [], name, suffix)
    ensures var r := ParseReference(Render(Some(host), [], name, suffix));
      r.repo == "" && r.repository == "/" + name && TarName(r) == "_" + name + ".tar"
  {
    ParseRender(Some(host), [], name, suffix);
  }

  /**
   * The tag never reaches the output file name: two references that differ
   * only in their tag or digest produce the same archive name, and the name
   * is the repository path with '/' replaced by '_', then `_name.tar`.
   */
  lemma TarNameIgnoresTag(host: Option<string>, path: seq<string>, name: string, s1: Suffix, s2: Suffix)
    requires WellFormed(host, path, name, s1) && WellFormed(host, path, name, s2)
    ensures TarName(ParseReference(Render(host, path, name, s1)))
         == TarName(ParseReference(Render(host, path, name, s2)))
         == Replace(RepoOf(host, path), '/', '_') + "_" + name + ".tar"
  {
    ParseRender(host, path, name, s1);
    ParseRender(host, path, name, s2);
  }

  /**
   * The name used by `RepoTags` and `repositories` keeps every segment
   * before the image name, the registry host included, and drops the tag.
   */
  lemma RepoNameOfRender(host: Option<string>, path: seq<string>, name: string, suffix: Suffix)
    requires WellFormed(host, path, name, suffix)
    ensures var r := ParseReference(Render(host, path, name, suffix));
      && RepoName(r) == (if HostSegment(host) + path == [] then name else Join(HostSegment(host) + path, '/') + "/" + name)
      && RepoTag(r) == RepoName(r) + ":" + TagOf(suffix)
  {
    ParseRender(host, path, name, suffix);
    var segs := HostSegment(host) + path + [name + SuffixText(suffix)];
    assert segs[..|segs| - 1] == HostSegment(host) + path;
  }
}

=== FILE: text.dfy ===
/**
 * The few Python string operations the pull script relies on: `str.split`
 * and `str.join` with a one-character separator, `str.replace` of one
 * character, and the slice `s[n:]`.
 */
module Text {

  /** `s.split(sep)`: the pieces between occurrences of `sep`; never empty. */
  function Split(s: string, sep: char): (parts: seq<string>)
    ensures |parts| >= 1
    decreases |s|
  {
    if s == [] then [""]
    else
      var rest := Split(s[1..], sep);
      if s[0] == sep then [""] + rest
      else [[s[0]] + rest[0]] + rest[1..]
  }

  /** `sep.join(parts)`. */
  function Join(parts: seq<string>, sep: char): string
    decreases |parts|
  {
    if |parts| == 0 then ""
    else if |parts| == 1 then parts[0]
    else parts[0] + [sep] + Join(parts[1..], sep)
  }

  /** `s.replace(from, to)` for single characters. */
  function Replace(s: string, from: char, to: char): (r: string)
    ensures |r| == |s|
    ensures from != to ==> from !in r
  {
    seq(|s|, i requires 0 <= i < |s| => if s[i] == from then to else s[i])
  }

  /** The slice `s[n:]`, which is empty when `s` is shorter than `n`. */
  function Drop(s: string, n: nat): (r: string)
    ensures |r| == if |s| >= n then |s| - n else 0
    ensures forall i :: 0 <= i < |r| ==> r[i] == s[n + i]
  {
    if |s| >= n then s[n..] else ""
  }

  /** Every piece `Split` returns is free of the separator. */
  lemma {:induction false} SplitPiecesFree(s: string, sep: char)
    ensures forall i :: 0 <= i < |Split(s, sep)| ==> sep !in Split(s, sep)[i]
    decreases |s|
  {
    if s != [] {
      SplitPiecesFree(s[1..], sep);
    }
  }

  /** There is one piece more than there are separators. */
  lemma {:induction false} SplitCount(s: string, sep: char)
    ensures |Split(s, sep)| == multiset(s)[sep] + 1
    decreases |s|
  {
    if s != [] {
      SplitCount(s[1..], sep);
      assert s == [s[0]] + s[1..];
      assert multiset(s) == multiset([s[0]]) + multiset(s[1..]);
    }
  }

  /** A string without the separator is its own only piece. */
  lemma {:induction false} SplitNoSep(s: string, sep: char)
    requires sep !in s
    ensures Split(s, sep) == [s]
    decreases |s|
  {
    if s != [] {
      SplitNoSep(s[1..], sep);
      assert s == [s[0]] + s[1..];
    }
  }

  /** Splitting distributes over a separator between two strings. */
  lemma {:induction false} SplitConcat(a: string, b: string, sep: char)
    ensures Split(a + [sep] + b, sep) == Split(a, sep) + Split(b, sep)
    decreases |a|
  {
    var s := a + [sep] + b;
    if a == [] {
      assert s[1..] == b;
    } else {
      assert s[1..] == a[1..] + [sep] + b;
      SplitConcat(a[1..], b, sep);
    }
  }

  /** Joining the pieces of a split gives the string back. */
  lemma {:induction false} JoinSplit(s: string, sep: char)
    ensures Join(Split(s, sep), sep) == s
    decreases |s|
  {
    if s != [] {
      var rest := Split(s[1..], sep);
      JoinSplit(s[1..], sep);
      if s[0] == sep {
        assert Split(s, sep)[1..] == rest;
      } else if |rest| > 1 {
        assert Split(s, sep)[1..] == rest[1..];
        assert Join(rest, sep) == rest[0] + [sep] + Join(rest[1..], sep);
      }
    }
  }

  /** Splitting a join of separator-free pieces gives the pieces back. */
  lemma {:induction false} SplitJoin(parts: seq<string>, sep: char)
    requires |parts| >= 1
    requires forall i :: 0 <= i < |parts| ==> sep !in parts[i]
    ensures Split(Join(parts, sep), sep) == parts
    decreases |parts|
  {
    SplitNoSep(parts[0], sep);
    if |parts| > 1 {
      SplitJoin(parts[1..], sep);
      SplitConcat(parts[0], Join(parts[1..], sep), sep);
    }
  }
}

=== FILE: wrappers.dfy ===
/** Optional values and results with an error, used by every module of the model. */
module Wrappers {
  datatype Option<+T> = None | Some(value: T)

  datatype Result<+T, +E> = Success(value: T) | Failure(error: E)
}
